=== FILE: README.md ===
# Evernote launcher plugin, modelled in Dafny

This project models the core of a launcher plugin that searches an Evernote
account. You type `evernote …` and the plugin shows a menu, the account's tags
or notebooks, or the notes matching a word. The model covers three parts:

- **The cached service** (`src/EvernoteService.js`). It is a singleton that
  owns an access token, a sandbox flag and an in-memory cache. Its five read
  operations work the same way: look up a key made from an operation prefix
  and the raw argument, and return a truthy cached value. Otherwise they call
  the remote and shape the answer. Tags and notebooks are filtered by a
  case-insensitive prefix and sorted by name, and tags are cut to 50. The
  answer is stored for a fixed time-to-live, and remote errors are turned into
  one of five messages. The service also builds web and application links to a
  note.
- **The earlier, uncached service** (`src/evernoteService.js`). It uses the
  same link builder and the same error table, but has no timeout case. Tags
  are filtered and cut to 50 in remote order, with no sort. Notebooks are only
  filtered.
- **The plugin entry point** (`src/index.js`). It matches `evernote(.*)`,
  guards on the access token, trims the argument and splits it on single
  spaces, then dispatches to the menu, tags, notebooks or note search. It turns
  results into displayed items.

The model is purely functional:
- The cache is a `map` from key to value and expiry. Each operation takes the
  current time in milliseconds.
- Each remote call is an input of type `Remote<T>`: a returned value or a
  raised error.
- Each operation returns its result, the service afterwards, and whether it
  called the remote.
- The module-level singleton slot is an `Option<Service>` passed in and
  returned.

Modules:
- `Wrappers`: Option and Result.
- `Text`: the JavaScript string built-ins the core uses.
- `Template`: `String.prototype.replace` with a string pattern and with a
  global regular expression.
- `Records`: the remote's records.
- `Shaping`: filtering, ordering and truncating listings.
- `Errors`: the error classifiers.
- `Cache`: the expiring store.
- `Links`: the note link builder.
- `Service`: the cached service.
- `Legacy`: the uncached service.
- `Plugin`: the entry point.

Points of the code worth knowing, which the model follows:
- Names sort by character code, as lodash's `orderBy` compares strings. Upper-case
  letters therefore sort before lower-case ones (`Shaping.ExampleSort`); the
  sort is not case-insensitive.
- `getInstance` keeps the first caller's token and sandbox flag.
- A cached empty note content is falsy, so it is fetched again.
- `getNoteContent` is not wrapped in the request timeout. Only that guard raises
  the timeout error, so the content fetch never fails with the took-too-long
  message (`Service.Admissible` excludes that remote answer).
- An answer is stored after the awaited call settles, so its time-to-live counts
  from then and not from the lookup.

## Model

| member | source | states |
|---|---|---|
| Text.Lower | src/EvernoteService.js:149 | `toLowerCase` keeps the length and lower-cases every letter A–Z, leaving other characters alone |
| Text.IndexOf | src/index.js:215 | finds the first occurrence of a pattern: it is found exactly when the pattern occurs somewhere, and it occurs nowhere earlier |
| Text.Less | src/EvernoteService.js:153 | the string order lodash sorts by; `LessIrreflexive`, `LessTransitive` and `LessTotal` prove it a strict total order |
| Text.LessTotal | src/EvernoteService.js:153 | any two different names are ordered one way or the other |
| Text.Trim | src/index.js:230 | `trim()` returns an infix of its input whose surroundings are all whitespace or line terminators, and which neither starts nor ends with one |
| Text.Split | src/index.js:230 | `split(' ')` yields at least one piece, and no piece contains the separator |
| Text.Join | src/index.js:238 | `join(sep)` starts with the first piece and adds no character but the separator; `JoinSplit` and `SplitJoin` make it the inverse of `Split` |
| Text.JoinSplit | src/index.js:230 | joining the pieces of a split with the same separator gives back the input |
| Text.SplitJoin | src/index.js:230 | splitting a join of separator-free pieces gives back the pieces |
| Text.JoinSplitReplaces | src/index.js:236-243 | re-joining split pieces with `_` is the input with every space replaced by `_` |
| Template.ReplaceFirstAfter | src/EvernoteService.js:302-304 | a string-pattern `replace` replaces the first occurrence of the pattern and nothing else |
| Template.Substitute | src/EvernoteService.js:302-311 | a replacement text without `$` is inserted verbatim |
| Template.ReplaceFirst | src/EvernoteService.js:302-304 | `replace` with a string pattern: no occurrence leaves the string alone, and otherwise the first occurrence, and only it, gives way to a `$`-free replacement |
| Template.ReplaceAll | src/EvernoteService.js:305 | `replace` with a global pattern leaves a string without the pattern's first character unchanged |
| Template.ReplaceAllCopiesFree | src/EvernoteService.js:305 | the global replace copies every character of a stretch that lacks the pattern's first character, unchanged and in order |
| Template.ReplaceAllAfterFree | src/EvernoteService.js:305 | the global replace puts a `$`-free replacement in place of the first occurrence after a stretch without the pattern's first character, and goes on replacing in the rest |
| Links.WebUrlShape | src/EvernoteService.js:296-315 | the web link is `{origin}/shard/{shardId}/nl/{userId}/{noteGuid}`, with the sandbox origin exactly when the service is in the sandbox, for ids without `%` or `$` |
| Links.AppUrlShape | src/EvernoteService.js:296-305 | the application link is `evernote:///view/{userId}/{shardId}/{noteGuid}/{noteGuid}`, whatever the sandbox flag, for ids without `%` or `$` |
| Links.BuildNoteUrl | src/EvernoteService.js:296-315 | the link builder for every input, chaining the four replacements in source order; its shapes are stated by `Links.WebUrlShape` and `Links.AppUrlShape` |
| Links.ExampleLinks | src/EvernoteService.js:296-315 | the production web link and the application link for user `u1`, shard `s1` and note `g1` |
| Shaping.KeepMatching | src/EvernoteService.js:147-151 | the filter keeps only items whose lower-cased name starts with the lower-cased term, keeps every such item, and adds nothing |
| Shaping.KeepMatchingConcat | src/EvernoteService.js:147-151 | the filter works piecewise, so it keeps the listing's order |
| Shaping.FilterByTerm | src/EvernoteService.js:147 | an empty filter term filters nothing |
| Shaping.SortByName | src/EvernoteService.js:153 | `orderBy` by name gives a permutation of its input |
| Shaping.SortByNameSorted | src/EvernoteService.js:153 | the sorted listing never has a name after a larger one |
| Shaping.SortByNameStable | src/EvernoteService.js:153 | items with the same name keep their listed order |
| Shaping.SortByNameOfSorted | src/EvernoteService.js:153 | a listing already in order is left unchanged |
| Shaping.ExampleSort | src/EvernoteService.js:153 | `Zeta`, `alpha`, `Beta` sort to `Beta`, `Zeta`, `alpha`: upper-case letters first |
| Shaping.Take | src/EvernoteService.js:155 | `slice(0, n)` is the first min(n, length) items |
| Shaping.ShapeTags | src/EvernoteService.js:147-155 | the tag listing is exactly the first min(50, n) of the filtered and sorted tags. It is in name order, and every tag matches a non-empty term. It is drawn from the remote's tags, and holds all matches when at most 50 match |
| Shaping.ShapeNotebooks | src/EvernoteService.js:187-193 | the notebook listing is sorted and stable, and is a permutation of the filtered notebooks (of all notebooks for an empty term). Every notebook matches a non-empty term |
| Errors.HandleErrors | src/EvernoteService.js:261-284 | each failure is produced exactly by its error. The invalid-token message needs a bad data format on `authenticationToken` (any other parameter gets the generic message), and the timeout gets the took-too-long message |
| Errors.Message | src/EvernoteService.js:269-283 | the five thrown texts, one per failure; `MessagesDistinct` states what sets them apart |
| Errors.MessagesDistinct | src/EvernoteService.js:269-283 | the five messages are pairwise different |
| Errors.LegacyHandleErrors | src/evernoteService.js:195-216 | the same three user-exception mappings; no error gives the took-too-long message, and every other error gives the generic one |
| Errors.ClassifiersAgreeButTimeout | src/EvernoteService.js:279-281 | the two classifiers agree on every error but the timeout |
| Cache.Get | src/EvernoteService.js:92 | a lookup yields the stored value exactly while its entry is live |
| Cache.Set | src/EvernoteService.js:117 | a store adds the key, with an expiry `ttl` seconds from now (none for 0), and leaves other keys' entries alone |
| Cache.GetAfterSet | src/EvernoteService.js:117 | a value just stored is served up to its expiry and not a moment after |
| Cache.GetOtherAfterSet | src/EvernoteService.js:157 | storing under one key leaves every other key's lookup unchanged |
| Service.KeysDistinct | src/EvernoteService.js:91-236 | keys of different operations never coincide; one operation's keys coincide only for equal arguments |
| Service.CaseMattersInKeys | src/EvernoteService.js:136-176 | `getTags("A")` and `getTags("a")` use different keys, and so do the notebook listings |
| Service.KeyOfInjective | src/EvernoteService.js:91-236 | two different requests never share a cache entry |
| Service.GetInstance | src/EvernoteService.js:61-68 | the first call constructs a service with an empty cache; later calls return the existing one |
| Service.FirstCallWins | src/EvernoteService.js:61-68 | after any series of calls the instance carries the first call's token and sandbox flag |
| Service.SearchNotes | src/EvernoteService.js:89-124 | a truthy hit is returned without a remote call. A miss calls the remote and stores the result for 3600 s from when the call settles; a failure yields the classified error and stores nothing |
| Service.GetTags | src/EvernoteService.js:132-164 | a hit is returned without a call. A miss returns the shaped listing and stores it under the raw filter term for 7200 s from when the call settles; a failure stores nothing |
| Service.GetNotebooks | src/EvernoteService.js:172-202 | a hit is returned without a call. A miss returns the shaped listing and stores it for 7200 s from when the call settles; a failure stores nothing |
| Service.GetNoteContent | src/EvernoteService.js:208-227 | a hit is never empty. A miss returns the content verbatim and stores it for 7200 s from when the call settles; a failure stores nothing and is never the took-too-long error, since this call is not under the timeout guard |
| Service.GetUser | src/EvernoteService.js:233-254 | a hit is returned without a call. A miss returns the user and stores it under the key `user` for 3600 s from when the call settles; a failure stores nothing |
| Service.Perform | src/EvernoteService.js:89-254 | the five operations as one, for every answer the remote can give: every operation keeps the cache consistent and keeps the credentials, and the content fetch never fails for taking too long |
| Service.HitIgnoresRemote | src/EvernoteService.js:92-95 | on a hit the reply does not depend on what the remote would answer or when it would settle |
| Service.RepeatWithinTtl | src/EvernoteService.js:92-117 | asking again within the time-to-live of a freshly fetched truthy value, counted from when that fetch settled, gives the same answer without a remote call |
| Service.RepeatAfterTtl | src/EvernoteService.js:40-48 | once the time-to-live has passed since the fetch settled, the remote is called again |
| Service.EmptyContentRefetched | src/EvernoteService.js:213-220 | fetched empty content is stored but never served, so the next request calls the remote |
| Service.OthersUntouched | src/EvernoteService.js:117-247 | an operation changes no other request's entry, at any time |
| Service.InterleavedRepeatHits | src/EvernoteService.js:92-95 | a different request in between does not disturb a cached answer while its time-to-live, counted from when its fetch settled, lasts |
| Legacy.Settle | src/evernoteService.js:86-188 | the remote's value as is, or its classified failure, on every call, never the took-too-long message |
| Legacy.GetTags | src/evernoteService.js:114-131 | the first min(50, n) filtered tags in remote order; every tag matches a non-empty term; an empty term takes a prefix of the remote's list |
| Legacy.GetNotebooks | src/evernoteService.js:143-151 | exactly the filtered notebooks in the remote's order, which `KeepMatching` pins down: each one matches, every match is kept, and an empty term returns the list unchanged |
| Legacy.BuildNoteUrl | src/evernoteService.js:228-247 | the same two link shapes and the same origin choice as the cached service; the uncached service's builder is the same code with the same templates, so the model reuses `Links.BuildNoteUrl` |
| Legacy.NotebooksAreLegacySorted | src/evernoteService.js:143-151 | the cached notebook listing is the uncached one sorted by name |
| Legacy.TagsSameWhenFew | src/evernoteService.js:118-126 | while at most 50 tags match, both services return the same tags, possibly in a different order |
| Legacy.TagsAgreeOnSortedListing | src/evernoteService.js:118-126 | when the remote lists the matching tags in name order, both services return the same list |
| Plugin.LineRest | src/index.js:4 | `(.*)` captures the longest prefix that has no line terminator |
| Plugin.MatchKeyword | src/index.js:215-217 | the unanchored pattern matches exactly when the keyword occurs in the term, and the group is the rest of the line after its first occurrence |
| Plugin.KeywordFirst | src/index.js:4 | a term starting with the keyword captures the rest of its line |
| Plugin.Dispatch | src/index.js:230-247 | the menu exactly for an empty trimmed argument; a listing only after its command word; a search only for a first word other than `tags` and `nb` |
| Plugin.DispatchWord | src/index.js:236-246 | `tags` or `nb` and a space list with the rest's spaces turned into `_`; any other word searches that word alone |
| Plugin.DispatchLoneWord | src/index.js:236-246 | a bare `tags` or `nb` lists everything; any other lone word is searched |
| Plugin.Decide | src/index.js:213-249 | nothing without the keyword; the action-required item exactly when the keyword is present and the token is unset or empty; otherwise the dispatched command |
| Plugin.TagItemTermSearches | src/index.js:195 | a tag item's term `evernote tag:{name}`, typed back in, searches for `tag:{name}` when the name has no whitespace |
| Plugin.NotebookItemTermSearches | src/index.js:155 | the same for a notebook item's term |
| Plugin.MenuTermsDispatch | src/index.js:46-65 | the terms the notebook and tag entries carry bring up the notebook listing and the tag listing |
| Plugin.MenuSelectFails | src/index.js:232-234 | the menu shown for the keyword and a space is the menu with working handlers with every handler replaced by one that throws, so selecting any entry fails |
| Plugin.IntendedMenuDispatches | src/index.js:34-75 | with working handlers, the search entry's new term brings up the menu to keep typing, the listing entries' terms bring up their listings, and the last entry opens the web login |
| Plugin.NamedItems | src/index.js:150-157 | one item per tag or notebook, in order, titled by its name and carrying `evernote tag:`/`evernote notebook:` and its name |
| Plugin.NamedItemTermsDistinct | src/index.js:155 | differently named entries carry different terms |
| Plugin.TagsView | src/index.js:180-209 | a "No results" notice for no tags, one item per tag otherwise, and one "Evernote Error" item with the message on failure |
| Plugin.NotebooksView | src/index.js:140-169 | the same for notebooks, with a connection-error item on failure |
| Plugin.NoteItems | src/index.js:100-116 | one item per note, in order, with the note's guid and title, opening its link |
| Plugin.NoteItemLinks | src/index.js:105-107 | note items open the web or application link, as the settings ask |
| Plugin.FirstFailure | src/index.js:85-128 | the failure the joined promise settles with is one of the two calls' failures, the only one when just one fails |
| Plugin.NotesView | src/index.js:85-129 | "No notes found" for an empty search, one item per note otherwise, and a connection-error item with the first failure's message |
| Plugin.Listing | src/index.js:132-210 | a tag or notebook listing shows that operation's reply through its view, and a search shows the notes view of the user and search replies, asked in that order; the remote is called for a search exactly when the user or the search misses the cache. The service stays consistent with its credentials |
| Plugin.Handle | src/index.js:213-249 | one keystroke: something is shown exactly when the keyword occurs. The action-required item without a token and the menu, whose handlers throw, for an empty argument leave the service alone. Any other command is the listing on the singleton, which a first call creates with the settings' token and sandbox flag; an existing service keeps its credentials |
| Plugin.TagsListingRepeats | src/index.js:180-198 | a tag listing fetched from the remote is shown again, unchanged and with no remote call, for two hours after the fetch settled |
| Plugin.TagListingRepeats | src/index.js:213-249 | typing the same tag command again within two hours of the fetch settling shows the same items without a remote call |

## Left out

- The request timeout race (`withTimeout`, src/EvernoteService.js:325-335) is
  concurrency. A timed-out call is the `RequestTimeout` outcome of the remote
  input.
- Hashing cache keys with MD5 is left out. Keys are the prefixed strings
  themselves, which treats the hash as injective.
- NodeCache's cloning, statistics and default time-to-live are left out. Every
  store passes its own time-to-live.
- The Evernote SDK client is a foreign call, and so is building the search
  filter and result spec (sort by update time descending, at most 50 notes).
  Remote answers are inputs.
- `memoize` in the uncached `getUser` comes from a library that is not part of
  this model. That `getUser` is modelled as a plain call (`Legacy.Settle`).
- `console.error` logging, the loader item, `debounce`, the `display` and
  `hide` callbacks, icons and the note preview component are UI glue. A
  debounced handler is modelled as running at once. A handler given `actions`
  is modelled by what it asks of them (`Open` or `ReplaceTerm`); a main-menu
  handler, which is not given them, is `Fails`.
- The clock is an input. Each operation reads it when it looks a key up and
  again when its remote call has settled and the answer is stored; both
  readings are arguments, and nothing orders them.
- Template.Substitute: its contract states only the `$`-free case. The body
  expands `$$`, `$&`, `` $` `` and `$'`, but no lemma states that expansion;
  the link builder's texts hold no `$` for ids without one.
- The order in which the two calls of a note search settle is timing. It is
  the `userFailsFirst` input.
- Text.Lower: lower-cases the letters A–Z only. The model does not cover
  JavaScript's full Unicode case mapping.
- Text.Less: compares characters by code point. lodash compares UTF-16 code
  units, which differs only when a character above U+FFFF meets one in
  U+E000–U+FFFF: U+FF00 sorts after U+10000 in JavaScript and before it here.
- Links.WebUrlShape, Links.AppUrlShape: require ids without `%` or `$`. A `%`
  could form a placeholder, and a `$` would be read as a substitution pattern.
  `Links.BuildNoteUrl` itself models every input.
- Plugin.TagItemTermSearches, Plugin.NotebookItemTermSearches: cover names
  without whitespace only. A name with a space is cut at it by the dispatcher.
- Each operation is modelled as finishing before the next one starts.
  Overlapping calls, where a second lookup comes before the first store, are
  concurrency and not modelled: two overlapping misses on one key both call
  the remote, and the later store wins.

## Findings

| source | as written | input that shows it | evidently intended | confidence | as-written member | corrected member |
|---|---|---|---|---|---|---|
| src/index.js:234 | `displayMainMenu(display)` passes no `actions`, so every entry's `onSelect` throws when it calls `actions.replaceTerm` or `actions.open` | typing `evernote ` and selecting any entry of the menu | `displayMainMenu(display, actions)`, whose handlers replace the term or open the web login | high, not executed | Plugin.MenuSelectFails | Plugin.IntendedMenuDispatches |

=== FILE: cache.dfy ===
/** The in-memory store the cached service keeps: each key holds a value and
    the time it expires at. The clock is an explicit argument, in milliseconds. */
module Cache {

  import opened Wrappers

  /** When an entry stops being served; a time-to-live of 0 means never. */
  datatype Expiry = Never | At(ms: int)

  datatype Entry<V> = Entry(value: V, expiry: Expiry)

  type Store<V> = map<string, Entry<V>>

  /** An entry is served up to and including its expiry time. */
  predicate Live<V>(e: Entry<V>, now: int) {
    match e.expiry
    case Never => true
    case At(ms) => now <= ms
  }

  /** `get(key)`: the stored value while its entry is live, nothing otherwise. */
  function Get<V>(store: Store<V>, key: string, now: int): (r: Option<V>)
    ensures r.Some? <==> key in store && Live(store[key], now)
    ensures r.Some? ==> r.value == store[key].value
  {
    if key in store && Live(store[key], now) then Some(store[key].value) else None
  }

  /** `set(key, value, ttl)` with `ttl` in seconds: the entry is overwritten and
      expires `ttl` seconds from `now`. */
  function Set<V>(store: Store<V>, key: string, value: V, ttl: nat, now: int): (r: Store<V>)
    ensures r.Keys == store.Keys + {key}
    ensures r[key].value == value
    ensures r[key].expiry == if ttl == 0 then Never else At(now + ttl * 1000)
    ensures forall k :: k in store && k != key ==> r[k] == store[k]
  {
    store[key := Entry(value, if ttl == 0 then Never else At(now + ttl * 1000))]
  }

  /** A value just stored is served until its time-to-live has elapsed, and not
      a moment after. */
  lemma GetAfterSet<V>(store: Store<V>, key: string, value: V, ttl: nat, now: int, later: int)
    requires ttl > 0
    ensures Get(Set(store, key, value, ttl, now), key, later) == (if later <= now + ttl * 1000 then Some(value) else None)
  {
  }

  /** Storing under one key leaves every other key's lookup as it was. */
  lemma GetOtherAfterSet<V>(store: Store<V>, key: string, value: V, ttl: nat, now: int, other: string, later: int)
    requires other != key
    ensures Get(Set(store, key, value, ttl, now), other, later) == Get(store, other, later)
  {
  }
}

=== FILE: errors.dfy ===
/** The error side of the remote service: what a failed call raises and the
    fixed messages the services turn it into. */
module Errors {

  import opened Wrappers

  /** The `errorCode` of a user exception; every code other than the three the
      services look at is `OtherCode`. */
  datatype ErrorCode = BadDataFormat | AuthExpired | RateLimitReached | OtherCode

  /** What a rejected remote call carries: a user exception with its code and
      the offending parameter (absent when the remote gives none), the timeout
      raised by the cached service's request guard, or anything else. */
  datatype RemoteError =
    | UserException(code: ErrorCode, parameter: Option<string>)
    | RequestTimeout
    | OtherError

  /** The outcome of one remote call. */
  datatype Remote<+T> = Returned(value: T) | Threw(error: RemoteError)

  /** The errors the services raise instead, one per message. */
  datatype Failure = InvalidToken | TokenExpired | RateLimited | TookTooLong | FetchFailed

  const TOKEN_PARAMETER := "authenticationToken"

  const INVALID_TOKEN_MESSAGE := "Invalid access token. Please check your token is correct configured on Plugin settings"
  const TOKEN_EXPIRED_MESSAGE := "Your Evernote token has expired. Please generate a new one to keep using this plugin"
  const RATE_LIMITED_MESSAGE := "Evernote rate limit reached. Please wait a little before using the plugin again."
  const TOOK_TOO_LONG_MESSAGE := "Evernote took too long to respond. Please try again."
  const FETCH_FAILED_MESSAGE := "An error occurred when fetching data from Evernote"

  /** The text of the raised error. */
  function Message(f: Failure): string {
    match f
    case InvalidToken => INVALID_TOKEN_MESSAGE
    case TokenExpired => TOKEN_EXPIRED_MESSAGE
    case RateLimited => RATE_LIMITED_MESSAGE
    case TookTooLong => TOOK_TOO_LONG_MESSAGE
    case FetchFailed => FETCH_FAILED_MESSAGE
  }

  /** Different failures raise different messages, so a caller can tell them
      apart from the text alone. */
  lemma MessagesDistinct(f: Failure, g: Failure)
    requires f != g
    ensures Message(f) != Message(g)
  {
  }

  /** `handleErrors` of the cached service: a bad data format counts as an
      invalid token only when the parameter is the authentication token (any
      other parameter falls through to the generic message); an expired token
      and a rate limit have their own messages, and so does the request timeout. */
  function HandleErrors(e: RemoteError): (f: Failure)
    ensures f == InvalidToken <==> e == UserException(BadDataFormat, Some(TOKEN_PARAMETER))
    ensures f == TokenExpired <==> e.UserException? && e.code == AuthExpired
    ensures f == RateLimited <==> e.UserException? && e.code == RateLimitReached
    ensures f == TookTooLong <==> e == RequestTimeout
  {
    match e
    case UserException(code, parameter) =>
      (match code
       case BadDataFormat => if parameter == Some(TOKEN_PARAMETER) then InvalidToken else FetchFailed
       case AuthExpired => TokenExpired
       case RateLimitReached => RateLimited
       case OtherCode => FetchFailed)
    case RequestTimeout => TookTooLong
    case OtherError => FetchFailed
  }

  /** `handleErrors` of the uncached service: the same three user-exception
      mappings and no timeout branch. */
  function LegacyHandleErrors(e: RemoteError): (f: Failure)
    ensures f == InvalidToken <==> e == UserException(BadDataFormat, Some(TOKEN_PARAMETER))
    ensures f == TokenExpired <==> e.UserException? && e.code == AuthExpired
    ensures f == RateLimited <==> e.UserException? && e.code == RateLimitReached
    ensures f != TookTooLong
    ensures !e.UserException? ==> f == FetchFailed
  {
    match e
    case UserException(code, parameter) =>
      (match code
       case BadDataFormat => if parameter == Some(TOKEN_PARAMETER) then InvalidToken else FetchFailed
       case AuthExpired => TokenExpired
       case RateLimitReached => RateLimited
       case OtherCode => FetchFailed)
    case _ => FetchFailed
  }

  /** The two classifiers differ on the timeout alone. */
  lemma ClassifiersAgreeButTimeout(e: RemoteError)
    ensures e != RequestTimeout ==> LegacyHandleErrors(e) == HandleErrors(e)
    ensures HandleErrors(RequestTimeout) == TookTooLong && LegacyHandleErrors(RequestTimeout) == FetchFailed
  {
  }
}

=== FILE: legacy.dfy ===
/** The earlier, uncached service: every operation goes to the remote, tag
    listings are filtered and truncated but not sorted, and errors are
    classified without a timeout case. */
module Legacy {

  import opened Wrappers
  import opened Records
  import opened Errors
  import opened Shaping
  import opened Links

  datatype LegacyService = LegacyService(token: string, sandbox: bool)

  /** `searchNotes`, `getNoteContent` and `getUser`: the remote's value as it
      is, or the classified failure. */
  function Settle<T>(remote: Remote<T>): (r: Result<T, Failure>)
    ensures r.Ok? <==> remote.Returned?
    ensures r.Ok? ==> r.value == remote.value
    ensures r.Err? ==> r.error == LegacyHandleErrors(remote.error) && r.error != TookTooLong
  {
    match remote
    case Returned(v) => Ok(v)
    case Threw(e) => Err(LegacyHandleErrors(e))
  }

  /** `getTags(filterTerm)`: the first 50 matching tags in the order the remote
      listed them. */
  function GetTags(filter: string, remote: Remote<seq<Named>>): (r: Result<seq<Named>, Failure>)
    ensures r.Ok? <==> remote.Returned?
    ensures r.Err? ==> r.error == LegacyHandleErrors(remote.error)
    ensures r.Ok? ==> var kept := FilterByTerm(remote.value, filter);
      |r.value| == (if |kept| < TAGS_MAX_RESULTS then |kept| else TAGS_MAX_RESULTS)
      && r.value == kept[..|r.value|]
    ensures r.Ok? && filter != "" ==> forall i :: 0 <= i < |r.value| ==> Matches(r.value[i], filter)
    ensures r.Ok? && filter == "" ==> r.value == remote.value[..|r.value|]
  {
    match remote
    case Returned(tags) =>
      var kept := FilterByTerm(tags, filter);
      var r := Take(kept, TAGS_MAX_RESULTS);
      Ok(r)
    case Threw(e) => Err(LegacyHandleErrors(e))
  }

  /** `getNotebooks(filterTerm)`: every matching notebook, in listing order. */
  function GetNotebooks(filter: string, remote: Remote<seq<Named>>): (r: Result<seq<Named>, Failure>)
    ensures r.Ok? <==> remote.Returned?
    ensures r.Err? ==> r.error == LegacyHandleErrors(remote.error)
    ensures r.Ok? ==> r.value == FilterByTerm(remote.value, filter)
    ensures r.Ok? && filter == "" ==> r.value == remote.value
    ensures r.Ok? && filter != "" ==> forall i :: 0 <= i < |r.value| ==> Matches(r.value[i], filter)
    ensures r.Ok? && filter != "" ==> forall x :: x in remote.value && Matches(x, filter) ==> x in r.value
    ensures r.Ok? ==> multiset(r.value) <= multiset(remote.value)
  {
    match remote
    case Returned(notebooks) => Ok(FilterByTerm(notebooks, filter))
    case Threw(e) => Err(LegacyHandleErrors(e))
  }

  /** `buildNoteUrl`: the uncached service holds the same code with the same
      templates and origins as the cached one, so it is the cached builder. */
  function BuildNoteUrl(svc: LegacyService, note: Note, user: User, appLink: bool): (url: string)
    ensures Plain(user.id) && Plain(user.shardId) && '$' !in note.guid && !appLink ==>
      url == BaseUrl(svc.sandbox) + "/shard/" + user.shardId + "/nl/" + user.id + "/" + note.guid
    ensures Plain(user.id) && Plain(user.shardId) && '$' !in note.guid && appLink ==>
      url == "evernote:///view/" + user.id + "/" + user.shardId + "/" + note.guid + "/" + note.guid
  {
    assert Plain(user.id) && Plain(user.shardId) && '$' !in note.guid ==>
      Links.BuildNoteUrl(svc.sandbox, note, user, appLink)
      == if appLink then "evernote:///view/" + user.id + "/" + user.shardId + "/" + note.guid + "/" + note.guid
         else BaseUrl(svc.sandbox) + "/shard/" + user.shardId + "/nl/" + user.id + "/" + note.guid
    by {
      if Plain(user.id) && Plain(user.shardId) && '$' !in note.guid {
        if appLink { AppUrlShape(svc.sandbox, note, user); } else { WebUrlShape(svc.sandbox, note, user); }
      }
    }
    Links.BuildNoteUrl(svc.sandbox, note, user, appLink)
  }

  // ---------------------------------------------------------------------------
  // How the two services compare on the same remote answer
  // ---------------------------------------------------------------------------

  /** The cached notebook listing is the uncached one sorted by name. */
  lemma NotebooksAreLegacySorted(filter: string, notebooks: seq<Named>)
    ensures ShapeNotebooks(notebooks, filter) == SortByName(GetNotebooks(filter, Returned(notebooks)).value)
  {
  }

  /** While at most 50 tags match, both services return the same tags, possibly
      in a different order. */
  lemma TagsSameWhenFew(filter: string, tags: seq<Named>)
    requires |FilterByTerm(tags, filter)| <= TAGS_MAX_RESULTS
    ensures multiset(ShapeTags(tags, filter)) == multiset(GetTags(filter, Returned(tags)).value)
  {
  }

  /** When the remote already lists the matching tags by name, both services
      return the same list. */
  lemma {:induction false} TagsAgreeOnSortedListing(filter: string, tags: seq<Named>)
    requires SortedByName(FilterByTerm(tags, filter))
    ensures ShapeTags(tags, filter) == GetTags(filter, Returned(tags)).value
  {
    SortByNameOfSorted(FilterByTerm(tags, filter));
  }

}

=== FILE: links.dfy ===
/** The note link builder: a template with `%…%` placeholders, filled in by a
    chain of `replace` calls. */
module Links {

  import opened Text
  import opened Template
  import opened Records

  const URL_SLOT := "%evernoteUrl%"
  const SHARD_SLOT := "%shardId%"
  const USER_SLOT := "%userId%"
  const GUID_SLOT := "%noteGuid%"

  /** The web client link format. */
  const WEB_FORMAT := URL_SLOT + "/shard/" + SHARD_SLOT + "/nl/" + USER_SLOT + "/" + GUID_SLOT

  /** The application link format; the note placeholder appears twice. */
  const APP_FORMAT := "evernote:///view/" + USER_SLOT + "/" + SHARD_SLOT + "/" + GUID_SLOT + "/" + GUID_SLOT

  const PRODUCTION_URL := "https://www.evernote.com"
  const SANDBOX_URL := "https://www.sandbox.evernote.com"

  /** The origin a link starts from. */
  function BaseUrl(sandbox: bool): string {
    if sandbox then SANDBOX_URL else PRODUCTION_URL
  }

  /** `buildNoteUrl(note, user, appLink)` of a service configured for `sandbox`:
      the placeholders are replaced in the order origin, shard, user, and then
      every note placeholder. */
  function BuildNoteUrl(sandbox: bool, note: Note, user: User, appLink: bool): string {
    var format := if appLink then APP_FORMAT else WEB_FORMAT;
    var withBase := ReplaceFirst(format, URL_SLOT, BaseUrl(sandbox));
    var withShard := ReplaceFirst(withBase, SHARD_SLOT, user.shardId);
    var withUser := ReplaceFirst(withShard, USER_SLOT, user.id);
    ReplaceAll(withUser, GUID_SLOT, note.guid)
  }

  /** An identifier the template chain inserts verbatim. */
  predicate Plain(id: string) {
    '%' !in id && '$' !in id
  }

  /** Neither origin contains a `%` or a `$`. */
  lemma BaseUrlPlain(sandbox: bool)
    ensures Plain(BaseUrl(sandbox))
  {
    assert Plain(PRODUCTION_URL);
    assert Plain(SANDBOX_URL);
  }

  /** `prefix + GUID_SLOT + rest` with a `%`-free prefix: the global replace
      copies the prefix and puts the guid in place of the placeholder. */
  lemma GuidAfterFree(s: string, prefix: string, rest: string, guid: string)
    requires s == prefix + GUID_SLOT + rest && '%' !in prefix && '$' !in guid
    ensures ReplaceAllFrom(s, GUID_SLOT, guid, 0) == prefix + guid + ReplaceAllFrom(s, GUID_SLOT, guid, |prefix| + |GUID_SLOT|)
  {
    assert FreeOf(s, 0, |prefix|, '%') by {
      forall k | 0 <= k < |prefix| ensures s[k] != '%' {
        assert s[k] == prefix[k];
      }
    }
    assert s[|prefix|..|prefix| + |GUID_SLOT|] == GUID_SLOT;
    ReplaceAllThroughOccurrence(s, GUID_SLOT, guid, |prefix|);
    assert s[..|prefix|] == prefix;
  }

  // The web chain, one replacement per lemma, over symbolic placeholders.

  lemma WebOrigin(u: string, sh: string, us: string, g: string, base: string)
    requires |u| > 0 && u[0] == '%' && Plain(base)
    ensures ReplaceFirst(u + "/shard/" + sh + "/nl/" + us + "/" + g, u, base)
      == base + "/shard/" + sh + "/nl/" + us + "/" + g
  {
    var t := "/shard/" + sh + "/nl/" + us + "/" + g;
    assert u + "/shard/" + sh + "/nl/" + us + "/" + g == u + t;
    ReplaceFirstAtStart(u, t, base);
    assert base + t == base + "/shard/" + sh + "/nl/" + us + "/" + g;
  }

  lemma WebShard(sh: string, us: string, g: string, base: string, shard: string)
    requires |sh| > 0 && sh[0] == '%' && Plain(base) && Plain(shard)
    ensures ReplaceFirst(base + "/shard/" + sh + "/nl/" + us + "/" + g, sh, shard)
      == base + "/shard/" + shard + "/nl/" + us + "/" + g
  {
    var t := "/nl/" + us + "/" + g;
    assert base + "/shard/" + sh + "/nl/" + us + "/" + g == (base + "/shard/") + sh + t;
    ReplaceFirstAfterFree(base + "/shard/", sh, t, shard);
    assert (base + "/shard/") + shard + t == base + "/shard/" + shard + "/nl/" + us + "/" + g;
  }

  lemma WebUser(us: string, g: string, base: string, shard: string, id: string)
    requires |us| > 0 && us[0] == '%' && Plain(base) && Plain(shard) && Plain(id)
    ensures ReplaceFirst(base + "/shard/" + shard + "/nl/" + us + "/" + g, us, id)
      == base + "/shard/" + shard + "/nl/" + id + "/" + g
  {
    var a := base + "/shard/" + shard + "/nl/";
    assert base + "/shard/" + shard + "/nl/" + us + "/" + g == a + us + ("/" + g);
    ReplaceFirstAfterFree(a, us, "/" + g, id);
    assert a + id + ("/" + g) == base + "/shard/" + shard + "/nl/" + id + "/" + g;
  }

  lemma WebGuid(base: string, shard: string, id: string, guid: string)
    requires Plain(base) && Plain(shard) && Plain(id) && '$' !in guid
    ensures ReplaceAll(base + "/shard/" + shard + "/nl/" + id + "/" + GUID_SLOT, GUID_SLOT, guid)
      == base + "/shard/" + shard + "/nl/" + id + "/" + guid
  {
    var prefix := base + "/shard/" + shard + "/nl/" + id + "/";
    var s := prefix + GUID_SLOT;
    assert s == prefix + GUID_SLOT + "";
    GuidAfterFree(s, prefix, "", guid);
    ReplaceAllAtEnd(s, GUID_SLOT, guid);
  }

  /** The web link of the cached service:
      `{origin}/shard/{shardId}/nl/{userId}/{noteGuid}`, the origin being the
      sandbox one exactly when the service is configured for the sandbox. */
  lemma WebUrlShape(sandbox: bool, note: Note, user: User)
    requires Plain(user.id) && Plain(user.shardId) && '$' !in note.guid
    ensures BuildNoteUrl(sandbox, note, user, false)
      == BaseUrl(sandbox) + "/shard/" + user.shardId + "/nl/" + user.id + "/" + note.guid
    ensures BaseUrl(sandbox) == (if sandbox then SANDBOX_URL else PRODUCTION_URL)
  {
    var base := BaseUrl(sandbox);
    BaseUrlPlain(sandbox);
    WebOrigin(URL_SLOT, SHARD_SLOT, USER_SLOT, GUID_SLOT, base);
    WebShard(SHARD_SLOT, USER_SLOT, GUID_SLOT, base, user.shardId);
    WebUser(USER_SLOT, GUID_SLOT, base, user.shardId, user.id);
    WebGuid(base, user.shardId, user.id, note.guid);
  }

  // The application chain.

  lemma AppOrigin(base: string)
    ensures ReplaceFirst(APP_FORMAT, URL_SLOT, base) == APP_FORMAT
  {
    var head := "evernote:///view/";
    var s := APP_FORMAT;
    // The origin placeholder has a 'U' that the application format lacks.
    assert 'U' !in head && 'U' !in USER_SLOT && 'U' !in SHARD_SLOT && 'U' !in GUID_SLOT && 'U' !in "/";
    assert 'U' in URL_SLOT;
    AbsentWhenCharMissing(s, URL_SLOT, 'U');
  }

  /** In the application format, the shard placeholder first occurs after the
      user placeholder. */
  lemma AppShardSlotFirst(head: string, b: string)
    requires head == "evernote:///view/"
    ensures forall k :: 0 <= k < |head + USER_SLOT + "/"| ==> !OccursAt(head + USER_SLOT + "/" + SHARD_SLOT + b, SHARD_SLOT, k)
  {
    var a := head + USER_SLOT + "/";
    var s := a + SHARD_SLOT + b;
    forall k | 0 <= k < |a| ensures !OccursAt(s, SHARD_SLOT, k) {
      if k < |head| {
        assert s[k] == head[k];
        assert '%' !in head;
        MismatchAt(s, SHARD_SLOT, k, 0);
      } else if k == |head| {
        assert s[k + 1] == USER_SLOT[1];
        MismatchAt(s, SHARD_SLOT, k, 1);
      } else if k < |head| + |USER_SLOT| - 1 {
        assert s[k] == USER_SLOT[k - |head|];
        MismatchAt(s, SHARD_SLOT, k, 0);
      } else if k == |head| + |USER_SLOT| - 1 {
        assert s[k + 1] == '/';
        MismatchAt(s, SHARD_SLOT, k, 1);
      } else {
        assert s[k] == '/';
        MismatchAt(s, SHARD_SLOT, k, 0);
      }
    }
  }

  lemma AppShard(shard: string)
    requires Plain(shard)
    ensures ReplaceFirst(APP_FORMAT, SHARD_SLOT, shard)
      == "evernote:///view/" + USER_SLOT + "/" + shard + "/" + GUID_SLOT + "/" + GUID_SLOT
  {
    var head := "evernote:///view/";
    var b := "/" + GUID_SLOT + "/" + GUID_SLOT;
    assert APP_FORMAT == (head + USER_SLOT + "/") + SHARD_SLOT + b;
    AppShardSlotFirst(head, b);
    ReplaceFirstAfter(head + USER_SLOT + "/", SHARD_SLOT, b, shard);
    assert (head + USER_SLOT + "/") + shard + b == head + USER_SLOT + "/" + shard + "/" + GUID_SLOT + "/" + GUID_SLOT;
  }

  lemma AppUser(us: string, g: string, shard: string, id: string)
    requires |us| > 0 && us[0] == '%' && Plain(id)
    ensures ReplaceFirst("evernote:///view/" + us + "/" + shard + "/" + g + "/" + g, us, id)
      == "evernote:///view/" + id + "/" + shard + "/" + g + "/" + g
  {
    AppHeadFree();
    AppUserAfter("evernote:///view/", us, g, shard, id);
  }

  /** Proved apart from `AppUser`, where the same fact about the literal is
      far more expensive. */
  lemma AppHeadFree()
    ensures '%' !in "evernote:///view/"
  {
  }

  lemma AppUserAfter(head: string, us: string, g: string, shard: string, id: string)
    requires |us| > 0 && us[0] == '%' && Plain(id) && '%' !in head
    ensures ReplaceFirst(head + us + "/" + shard + "/" + g + "/" + g, us, id)
      == head + id + "/" + shard + "/" + g + "/" + g
  {
    var t := "/" + shard + "/" + g + "/" + g;
    Regroup(head + us, shard, g);
    Regroup(head + id, shard, g);
    ReplaceFirstAfterFree(head, us, t, id);
  }

  /** The tail of an application link, split off at its first `/`. Proved on
      its own because regrouping inside `AppUserAfter` is expensive. */
  lemma Regroup(p: string, shard: string, g: string)
    ensures p + ("/" + shard + "/" + g + "/" + g) == p + "/" + shard + "/" + g + "/" + g
  {
  }

  /** The tail `/%noteGuid%` after the first replaced note placeholder. */
  lemma GuidTail(s: string, j: nat, guid: string)
    requires j + 1 + |GUID_SLOT| == |s| && s[j..] == "/" + GUID_SLOT && '$' !in guid
    ensures ReplaceAllFrom(s, GUID_SLOT, guid, j) == "/" + guid
  {
    assert s[j] == '/';
    assert FreeOf(s, j, j + 1, '%');
    ReplaceAllCopiesFree(s, GUID_SLOT, guid, j, j + 1);
    assert s[j + 1..j + 1 + |GUID_SLOT|] == GUID_SLOT;
    ReplaceAllAtOccurrence(s, GUID_SLOT, guid, j + 1);
    ReplaceAllAtEnd(s, GUID_SLOT, guid);
    assert s[j..j + 1] == "/";
  }

  lemma AppGuid(shard: string, id: string, guid: string)
    requires Plain(shard) && Plain(id) && '$' !in guid
    ensures ReplaceAll("evernote:///view/" + id + "/" + shard + "/" + GUID_SLOT + "/" + GUID_SLOT, GUID_SLOT, guid)
      == "evernote:///view/" + id + "/" + shard + "/" + guid + "/" + guid
  {
    var p1 := "evernote:///view/" + id + "/" + shard + "/";
    assert '%' !in "evernote:///view/";
    var s := p1 + GUID_SLOT + ("/" + GUID_SLOT);
    assert s == "evernote:///view/" + id + "/" + shard + "/" + GUID_SLOT + "/" + GUID_SLOT;
    GuidAfterFree(s, p1, "/" + GUID_SLOT, guid);
    var j := |p1| + |GUID_SLOT|;
    assert s[j..] == "/" + GUID_SLOT;
    GuidTail(s, j, guid);
  }

  /** The application link of the cached service:
      `evernote:///view/{userId}/{shardId}/{noteGuid}/{noteGuid}`, whatever the
      sandbox flag. */
  lemma AppUrlShape(sandbox: bool, note: Note, user: User)
    requires Plain(user.id) && Plain(user.shardId) && '$' !in note.guid
    ensures BuildNoteUrl(sandbox, note, user, true)
      == "evernote:///view/" + user.id + "/" + user.shardId + "/" + note.guid + "/" + note.guid
  {
    AppOrigin(BaseUrl(sandbox));
    AppShard(user.shardId);
    AppUser(USER_SLOT, GUID_SLOT, user.shardId, user.id);
    AppGuid(user.shardId, user.id, note.guid);
  }

  /** Two concrete links: a production web link and an application link for user `u1` on shard `s1` and note `g1`. */
  lemma ExampleLinks()
    ensures BuildNoteUrl(false, Note("g1", "t"), User("u1", "s1"), false)
      == "https://www.evernote.com/shard/s1/nl/u1/g1"
    ensures BuildNoteUrl(false, Note("g1", "t"), User("u1", "s1"), true)
      == "evernote:///view/u1/s1/g1/g1"
  {
    ExampleWeb();
    ExampleApp();
  }

  // Each example is split into the replace chain (`…Pieces`) and the text of
  // the literal (`…Text`); proved together they are too expensive.

  lemma ExampleWeb()
    ensures BuildNoteUrl(false, Note("g1", "t"), User("u1", "s1"), false)
      == "https://www.evernote.com/shard/s1/nl/u1/g1"
  {
    ExampleWebPieces();
    ExampleWebText();
  }

  lemma ExampleWebPieces()
    ensures BuildNoteUrl(false, Note("g1", "t"), User("u1", "s1"), false)
      == PRODUCTION_URL + "/shard/" + "s1" + "/nl/" + "u1" + "/" + "g1"
  {
    WebUrlShape(false, Note("g1", "t"), User("u1", "s1"));
  }

  lemma ExampleWebText()
    ensures PRODUCTION_URL + "/shard/" + "s1" + "/nl/" + "u1" + "/" + "g1" == "https://www.evernote.com/shard/s1/nl/u1/g1"
  {
  }

  lemma ExampleApp()
    ensures BuildNoteUrl(false, Note("g1", "t"), User("u1", "s1"), true)
      == "evernote:///view/u1/s1/g1/g1"
  {
    ExampleAppPieces();
    ExampleAppText();
  }

  lemma ExampleAppPieces()
    ensures BuildNoteUrl(false, Note("g1", "t"), User("u1", "s1"), true)
      == "evernote:///view/" + "u1" + "/" + "s1" + "/" + "g1" + "/" + "g1"
  {
    AppUrlShape(false, Note("g1", "t"), User("u1", "s1"));
  }

  lemma ExampleAppText()
    ensures "evernote:///view/" + "u1" + "/" + "s1" + "/" + "g1" + "/" + "g1" == "evernote:///view/u1/s1/g1/g1"
  {
  }
}

=== FILE: plugin.dfy ===
/** The launcher entry point: it recognises the keyword in the typed term,
    refuses to work without an access token, parses the rest into one of four
    commands and turns the service's answers into the items it displays. */
module Plugin {

  import opened Wrappers
  import opened Text
  import opened Records
  import opened Errors
  import Links
  import opened Service
  import opened Cache
  import opened Shaping

  const KEYWORD := "evernote"

  // ---------------------------------------------------------------------------
  // Matching `evernote(.*)`
  // ---------------------------------------------------------------------------

  /** What `(.*)` captures: the longest prefix without a line terminator. */
  function LineRest(s: string): (r: string)
    ensures |r| <= |s| && r == s[..|r|]
    ensures forall i :: 0 <= i < |r| ==> !IsLineTerminator(r[i])
    ensures |r| < |s| ==> IsLineTerminator(s[|r|])
  {
    if |s| == 0 || IsLineTerminator(s[0]) then ""
    else
      var rest := LineRest(s[1..]);
      assert [s[0]] + rest == s[..|rest| + 1];
      [s[0]] + rest
  }

  /** A string without line terminators is captured whole. */
  lemma LineRestWhole(s: string)
    requires forall i :: 0 <= i < |s| ==> !IsLineTerminator(s[i])
    ensures LineRest(s) == s
  {
  }

  /** `term.match(/evernote(.*)/)`: the unanchored pattern matches at the first
      occurrence of the keyword, and the group holds what follows it up to the
      end of its line. */
  function MatchKeyword(term: string): (r: Option<string>)
    ensures r.Some? <==> exists j :: 0 <= j <= |term| && OccursAt(term, KEYWORD, j)
    ensures r.Some? ==>
      (exists i: nat :: FirstOccurrence(term, KEYWORD, i) && r.value == LineRest(term[i + |KEYWORD|..]))
  {
    match IndexOf(term, KEYWORD)
    case None => None
    case Some(i) =>
      var r := LineRest(term[i + |KEYWORD|..]);
      assert FirstOccurrence(term, KEYWORD, i) && r == LineRest(term[i + |KEYWORD|..]);
      Some(r)
  }

  /** A term that starts with the keyword is matched there. */
  lemma KeywordFirst(after: string)
    ensures MatchKeyword(KEYWORD + after) == Some(LineRest(after))
  {
    var term := KEYWORD + after;
    assert OccursAt(term, KEYWORD, 0) by {
      assert term[..|KEYWORD|] == KEYWORD;
    }
    assert term[|KEYWORD|..] == after;
  }

  // ---------------------------------------------------------------------------
  // Parsing the argument
  // ---------------------------------------------------------------------------

  /** What the plugin goes on to do with a matched term. */
  datatype Command =
    | MainMenu
    | ListTags(tagFilter: string)
    | ListNotebooks(notebookFilter: string)
    | Search(word: string)

  const TAGS_WORD := "tags"
  const NOTEBOOKS_WORD := "nb"

  /** `w` is the text of `t` up to its first space. */
  predicate IsFirstWord(t: string, w: string) {
    && StartsWith(t, w)
    && ' ' !in w
    && (|w| == |t| || t[|w|] == ' ')
  }

  /** The first piece of a split is the text up to the first separator. */
  lemma SplitHead(s: string)
    ensures IsFirstWord(s, Split(s, ' ')[0])
  {
    match FirstIndex(s, ' ')
    case None =>
    case Some(i) => assert Split(s, ' ')[0] == s[..i];
  }

  /** `match[1].trim().split(' ')`, then the switch on the first piece; the
      remaining pieces of a tags or notebooks command are joined with `_`. */
  function Dispatch(arg: string): (c: Command)
    ensures c == MainMenu <==> Trim(arg) == ""
    ensures c.Search? ==> c.word != "" && c.word != TAGS_WORD && c.word != NOTEBOOKS_WORD && IsFirstWord(Trim(arg), c.word)
    ensures c.ListTags? ==> IsFirstWord(Trim(arg), TAGS_WORD)
    ensures c.ListNotebooks? ==> IsFirstWord(Trim(arg), NOTEBOOKS_WORD)
  {
    var t := Trim(arg);
    var parts := Split(t, ' ');
    SplitHead(t);
    assert parts[0] == "" ==> t == "" by {
      if parts[0] == "" && t != "" {
        assert t[0] == ' ';
        assert IsTrimmed(t[0]);
      }
    }
    if parts[0] == "" then MainMenu
    else if parts[0] == TAGS_WORD then ListTags(Join(parts[1..], '_'))
    else if parts[0] == NOTEBOOKS_WORD then ListNotebooks(Join(parts[1..], '_'))
    else Search(parts[0])
  }

  /** A command word, a space and more text: `tags` and `nb` list the tags or
      notebooks filtered by that text with every space turned into `_` (so runs
      of spaces give runs of `_`); any other word searches the notes for that
      word alone, dropping the rest. */
  lemma {:induction false} DispatchWord(arg: string, word: string, rest: string)
    requires word != "" && ' ' !in word
    requires Trim(arg) == word + [' '] + rest
    ensures Dispatch(arg) == if word == TAGS_WORD then ListTags(ReplaceChar(rest, ' ', '_'))
      else if word == NOTEBOOKS_WORD then ListNotebooks(ReplaceChar(rest, ' ', '_'))
      else Search(word)
  {
    var s := word + [' '] + rest;
    FirstIndexAfterPrefix(word, ' ', rest);
    assert s[..|word|] == word;
    assert s[|word| + 1..] == rest;
    assert Split(s, ' ') == [word] + Split(rest, ' ');
    assert Split(s, ' ')[1..] == Split(rest, ' ');
    JoinSplitReplaces(rest, ' ', '_');
  }

  /** A command word alone: the whole listing, or a search for the word. */
  lemma DispatchLoneWord(arg: string, word: string)
    requires word != "" && ' ' !in word
    requires Trim(arg) == word
    ensures Dispatch(arg) == if word == TAGS_WORD then ListTags("")
      else if word == NOTEBOOKS_WORD then ListNotebooks("")
      else Search(word)
  {
    assert FirstIndex(word, ' ').None?;
    assert Split(word, ' ') == [word];
  }

  // ---------------------------------------------------------------------------
  // The token guard
  // ---------------------------------------------------------------------------

  /** The plugin's settings; an unset access token is `None`. */
  datatype Settings = Settings(accessToken: Option<string>, sandbox: bool, openLinksOnApplication: bool)

  /** `!settings.accessToken` is false: a token is set and not empty. */
  predicate HasToken(settings: Settings) {
    settings.accessToken.Some? && settings.accessToken.value != ""
  }

  /** What `plugin` decides for a typed term, before any service call. */
  datatype Outcome = Silent | ActionRequired | Run(command: Command)

  function Decide(term: string, settings: Settings): (o: Outcome)
    ensures o == Silent <==> MatchKeyword(term).None?
    ensures o == ActionRequired <==> MatchKeyword(term).Some? && !HasToken(settings)
    ensures o.Run? ==> o.command == Dispatch(MatchKeyword(term).value) && HasToken(settings)
  {
    match MatchKeyword(term)
    case None => Silent
    case Some(arg) => if !HasToken(settings) then ActionRequired else Run(Dispatch(arg))
  }

  /** No character of `w` is one `trim` removes. */
  predicate Solid(w: string) {
    forall i :: 0 <= i < |w| ==> !IsTrimmed(w[i])
  }

  lemma SolidConcat(a: string, b: string)
    requires Solid(a) && Solid(b)
    ensures Solid(a + b)
  {
    forall i | 0 <= i < |a + b| ensures !IsTrimmed((a + b)[i]) {
      if i < |a| { assert (a + b)[i] == a[i]; } else { assert (a + b)[i] == b[i - |a|]; }
    }
  }

  /** A solid word has no space and no line terminator. */
  lemma SolidIsOneLineWord(w: string)
    requires Solid(w)
    ensures ' ' !in w
    ensures LineRest(" " + w) == " " + w
  {
    forall i | 0 <= i < |w| ensures w[i] != ' ' && !IsLineTerminator(w[i]) {
      assert !IsTrimmed(w[i]);
    }
    var after := " " + w;
    forall i | 0 <= i < |after| ensures !IsLineTerminator(after[i]) {
      if i > 0 { assert after[i] == w[i - 1]; }
    }
    LineRestWhole(after);
  }

  /** A term of the keyword, one space and a solid word dispatches that word
      on its own. */
  lemma KeywordSpaceWord(settings: Settings, word: string)
    requires HasToken(settings)
    requires |word| > 0 && Solid(word)
    ensures Decide(KEYWORD + (" " + word), settings) == Run(Dispatch(" " + word))
    ensures Trim(" " + word) == word && ' ' !in word
  {
    KeywordFirst(" " + word);
    SolidIsOneLineWord(word);
    TrimAfterSpace(word);
  }

  /** A term `evernote {kind}{name}` whose kind ends in `:` and that holds no
      trimmable character after the space searches the notes for `{kind}{name}`. */
  lemma {:induction false} TypedBack(settings: Settings, kind: string, name: string)
    requires HasToken(settings)
    requires |kind| > 0 && kind[|kind| - 1] == ':'
    requires Solid(kind) && Solid(name)
    ensures Decide(KEYWORD + (" " + (kind + name)), settings) == Run(Search(kind + name))
  {
    var word := kind + name;
    SolidConcat(kind, name);
    KeywordSpaceWord(settings, word);
    assert word[|kind| - 1] == ':';
    ColonWordIsNoListing(word, |kind| - 1);
    DispatchLoneWord(" " + word, word);
    assert Dispatch(" " + word) == Search(word);
  }

  /** A word with a `:` in it is neither listing word. Proved on its own
      because the literals are expensive inside `TypedBack`. */
  lemma ColonWordIsNoListing(word: string, i: nat)
    requires i < |word| && word[i] == ':'
    ensures word != TAGS_WORD && word != NOTEBOOKS_WORD
  {
    assert ':' !in TAGS_WORD && ':' !in NOTEBOOKS_WORD;
  }

  /** A space before a word that has no trimmable character is trimmed off. */
  lemma TrimAfterSpace(w: string)
    requires |w| > 0
    requires Solid(w)
    ensures Trim(" " + w) == w
  {
    var s := " " + w;
    var r := Trim(s);
    var i :| 0 <= i <= |s| && TrimmedAt(s, r, i);
    assert s[0] == ' ' && IsTrimmed(s[0]);
    assert s[1] == w[0] && !IsTrimmed(s[1]);
    assert s[|s| - 1] == w[|w| - 1] && !IsTrimmed(s[|s| - 1]);
    assert i == 1;
    assert r == s[1..];
  }

  // ---------------------------------------------------------------------------
  // Items
  // ---------------------------------------------------------------------------

  /** What selecting an item does; `Fails` is a handler that throws before it
      does what it is for (at most the event's default has been prevented). */
  datatype Action = NoAction | Open(url: string) | ReplaceTerm(newTerm: string) | Fails

  /** A displayed result; the icon is the same for all and left out. */
  datatype Item = Item(id: Option<string>, title: string, subtitle: Option<string>, term: Option<string>, action: Action)

  /** An item that only shows a title. */
  function Notice(title: string): Item {
    Item(None, title, None, None, NoAction)
  }

  const NO_RESULTS := "No results matching your search criteria"
  const NO_NOTES := "No notes found matching your criteria"
  const CONNECTION_ERROR := "An error occurred when connecting to Evernote"
  const TAGS_ERROR := "Evernote Error"
  const LOGIN_URL := "https://www.evernote.com/Login.action"

  const ACTION_REQUIRED := Item(None, "Action required",
    Some("Please set your Evernote access token in the Plugin settings to be able to use this plugin"),
    Some(KEYWORD + " settings"), NoAction)

  /** The main menu entries as `plugin` displays them. The menu is shown
      without the `actions` object its handlers call, so selecting any entry
      throws; only the notebook and tag entries carry a term. */
  const SEARCH_ENTRY := Item(None, "Search Notes", Some("Please keep typing to search notes"), None, Fails)
  const NOTEBOOKS_ENTRY := Item(None, "List Notebooks", None, Some(KEYWORD + " " + NOTEBOOKS_WORD), Fails)
  const TAGS_ENTRY := Item(None, "List Tags", None, Some(KEYWORD + " " + TAGS_WORD), Fails)
  const WEB_ENTRY := Item(None, "Open Evernote Web", None, None, Fails)

  /** The main menu: search, the notebook and tag listings, and the web login. */
  const MAIN_MENU := [SEARCH_ENTRY, NOTEBOOKS_ENTRY, TAGS_ENTRY, WEB_ENTRY]

  /** What the entries' handlers do once they are given `actions`. */
  const SEARCH_SELECT := ReplaceTerm(KEYWORD + " ")
  const NOTEBOOKS_SELECT := ReplaceTerm(KEYWORD + " " + NOTEBOOKS_WORD)
  const TAGS_SELECT := ReplaceTerm(KEYWORD + " " + TAGS_WORD)
  const WEB_SELECT := Open(LOGIN_URL)

  /** The menu with working handlers, as `displayMainMenu(display, actions)`
      would show it. */
  const INTENDED_MENU := [SEARCH_ENTRY.(action := SEARCH_SELECT), NOTEBOOKS_ENTRY.(action := NOTEBOOKS_SELECT),
                          TAGS_ENTRY.(action := TAGS_SELECT), WEB_ENTRY.(action := WEB_SELECT)]

  /** The terms the notebook and tag entries carry bring up those listings. */
  lemma MenuTermsDispatch(settings: Settings)
    requires HasToken(settings)
    ensures Decide(NOTEBOOKS_ENTRY.term.value, settings) == Run(ListNotebooks(""))
    ensures Decide(TAGS_ENTRY.term.value, settings) == Run(ListTags(""))
  {
    MenuTermDispatches(settings, NOTEBOOKS_WORD);
    MenuTermDispatches(settings, TAGS_WORD);
  }

  /** The menu as shown: for the keyword and a space it is the intended menu
      with every handler replaced by one that throws, so selecting an entry
      does nothing. */
  lemma MenuSelectFails(slot: Option<Service>, settings: Settings, now: int, world: World)
    requires SlotConsistent(slot) && HasToken(settings)
    ensures var s := Handle(slot, KEYWORD + " ", settings, now, world);
      |s.items| == |INTENDED_MENU| == 4 && forall i :: 0 <= i < |s.items| ==> s.items[i].action == Fails
    ensures var s := Handle(slot, KEYWORD + " ", settings, now, world);
      forall i :: 0 <= i < |s.items| ==> s.items[i] == INTENDED_MENU[i].(action := Fails)
  {
    SpaceAloneIsMenu(settings);
  }

  /** With working handlers every entry leads where its title says: the search
      entry back to the menu to keep typing, the listings to their commands and
      the last entry to the web login. */
  lemma IntendedMenuDispatches(settings: Settings)
    requires HasToken(settings)
    ensures Decide(SEARCH_SELECT.newTerm, settings) == Run(MainMenu)
    ensures Decide(NOTEBOOKS_SELECT.newTerm, settings) == Run(ListNotebooks(""))
    ensures Decide(TAGS_SELECT.newTerm, settings) == Run(ListTags(""))
    ensures WEB_SELECT == Open(LOGIN_URL)
  {
    MenuTermDispatches(settings, NOTEBOOKS_WORD);
    MenuTermDispatches(settings, TAGS_WORD);
    SpaceAloneIsMenu(settings);
  }

  /** The keyword and a space alone bring up the main menu. */
  lemma SpaceAloneIsMenu(settings: Settings)
    requires HasToken(settings)
    ensures Decide(KEYWORD + " ", settings) == Run(MainMenu)
  {
    KeywordFirst(" ");
    LineRestWhole(" ");
    assert IsTrimmed(" "[0]);
    assert TrimStart(" ") == TrimStart(" "[1..]);
    assert " "[1..] == "";
  }

  lemma MenuTermDispatches(settings: Settings, word: string)
    requires HasToken(settings)
    requires word == NOTEBOOKS_WORD || word == TAGS_WORD
    ensures Decide(KEYWORD + " " + word, settings) == Run(Dispatch(" " + word))
    ensures Dispatch(" " + word) == if word == TAGS_WORD then ListTags("") else ListNotebooks("")
  {
    assert KEYWORD + " " + word == KEYWORD + (" " + word);
    assert Solid(word);
    KeywordSpaceWord(settings, word);
    DispatchLoneWord(" " + word, word);
  }

  const TAG_KIND := "tag:"
  const NOTEBOOK_KIND := "notebook:"
  const TAG_TERM := KEYWORD + " " + TAG_KIND
  const NOTEBOOK_TERM := KEYWORD + " " + NOTEBOOK_KIND

  /** The term a tag item carries, typed back in, searches the notes carrying
      that tag, as long as the name holds no space or other trimmable character. */
  lemma TagItemTermSearches(settings: Settings, name: string)
    requires HasToken(settings)
    requires Solid(name)
    ensures Decide(TAG_TERM + name, settings) == Run(Search(TAG_KIND + name))
  {
    assert TAG_TERM + name == KEYWORD + (" " + (TAG_KIND + name));
    assert Solid(TAG_KIND);
    TypedBack(settings, TAG_KIND, name);
  }

  /** The same for a notebook item. */
  lemma NotebookItemTermSearches(settings: Settings, name: string)
    requires HasToken(settings)
    requires Solid(name)
    ensures Decide(NOTEBOOK_TERM + name, settings) == Run(Search(NOTEBOOK_KIND + name))
  {
    assert NOTEBOOK_TERM + name == KEYWORD + (" " + (NOTEBOOK_KIND + name));
    assert Solid(NOTEBOOK_KIND);
    TypedBack(settings, NOTEBOOK_KIND, name);
  }

  /** One item per tag or notebook, in order, titled by its name and carrying
      the term `prefix + name`. */
  function NamedItems(list: seq<Named>, prefix: string): (r: seq<Item>)
    ensures |r| == |list|
    ensures forall i :: 0 <= i < |list| ==> r[i] == Item(Some(list[i].guid), list[i].name, None, Some(prefix + list[i].name), NoAction)
  {
    if |list| == 0 then [] else [Item(Some(list[0].guid), list[0].name, None, Some(prefix + list[0].name), NoAction)] + NamedItems(list[1..], prefix)
  }

  /** Items of differently named entries carry different terms. */
  lemma NamedItemTermsDistinct(list: seq<Named>, prefix: string, i: nat, j: nat)
    requires i < |list| && j < |list| && list[i].name != list[j].name
    ensures NamedItems(list, prefix)[i].term != NamedItems(list, prefix)[j].term
  {
    PrefixCancels(prefix, list[i].name, list[j].name);
  }

  /** The outcome of a tag listing: its items, a "No results" notice for an
      empty list, or one "Evernote Error" item with the failure's message. */
  function TagsView(result: Result<seq<Named>, Failure>): (r: seq<Item>)
    ensures result.Err? ==> r == [Item(None, TAGS_ERROR, Some(Message(result.error)), None, NoAction)]
    ensures result.Ok? && |result.value| == 0 ==> r == [Notice(NO_RESULTS)]
    ensures result.Ok? && |result.value| > 0 ==> r == NamedItems(result.value, TAG_TERM)
  {
    match result
    case Err(f) => [Item(None, TAGS_ERROR, Some(Message(f)), None, NoAction)]
    case Ok(tags) => if |tags| == 0 then [Notice(NO_RESULTS)] else NamedItems(tags, TAG_TERM)
  }

  /** The outcome of a notebook listing; its failure item reads as a connection
      error. */
  function NotebooksView(result: Result<seq<Named>, Failure>): (r: seq<Item>)
    ensures result.Err? ==> r == [Item(None, CONNECTION_ERROR, Some(Message(result.error)), None, NoAction)]
    ensures result.Ok? && |result.value| == 0 ==> r == [Notice(NO_RESULTS)]
    ensures result.Ok? && |result.value| > 0 ==> r == NamedItems(result.value, NOTEBOOK_TERM)
  {
    match result
    case Err(f) => [Item(None, CONNECTION_ERROR, Some(Message(f)), None, NoAction)]
    case Ok(notebooks) => if |notebooks| == 0 then [Notice(NO_RESULTS)] else NamedItems(notebooks, NOTEBOOK_TERM)
  }

  /** The item of one note: its guid and title, opening the note's link. */
  function NoteItem(note: Note, user: User, sandbox: bool, appLink: bool): Item {
    Item(Some(note.guid), note.title, None, None, Open(Links.BuildNoteUrl(sandbox, note, user, appLink)))
  }

  /** One item per note, in order. */
  function NoteItems(notes: seq<Note>, user: User, sandbox: bool, appLink: bool): (r: seq<Item>)
    ensures |r| == |notes|
    ensures forall i :: 0 <= i < |notes| ==> r[i] == NoteItem(notes[i], user, sandbox, appLink)
  {
    if |notes| == 0 then []
    else
      var rest := NoteItems(notes[1..], user, sandbox, appLink);
      assert forall i :: 1 <= i < |notes| ==> rest[i - 1] == NoteItem(notes[i], user, sandbox, appLink) by {
        forall i | 1 <= i < |notes| ensures rest[i - 1] == NoteItem(notes[i], user, sandbox, appLink) {
          assert notes[1..][i - 1] == notes[i];
        }
      }
      [NoteItem(notes[0], user, sandbox, appLink)] + rest
  }

  /** The failure `Promise.all` settles with: the user lookup's when it is the
      only one or the first to fail, the search's otherwise. */
  function FirstFailure(user: Result<User, Failure>, notes: Result<NoteList, Failure>, userFailsFirst: bool): (f: Failure)
    requires user.Err? || notes.Err?
    ensures notes.Ok? ==> f == user.error
    ensures user.Ok? ==> f == notes.error
    ensures (user.Err? && f == user.error) || (notes.Err? && f == notes.error)
  {
    if user.Err? && (notes.Ok? || userFailsFirst) then user.error else notes.error
  }

  /** The outcome of a note search, which waits for both the user and the
      search result. */
  function NotesView(user: Result<User, Failure>, notes: Result<NoteList, Failure>, userFailsFirst: bool, sandbox: bool, appLink: bool): (r: seq<Item>)
    ensures user.Ok? && notes.Ok? && |notes.value.notes| == 0 ==> r == [Notice(NO_NOTES)]
    ensures user.Ok? && notes.Ok? && |notes.value.notes| > 0 ==> r == NoteItems(notes.value.notes, user.value, sandbox, appLink)
    ensures user.Err? || notes.Err? ==> |r| == 1 && r[0].title == CONNECTION_ERROR && r[0].subtitle.Some?
    ensures user.Err? && notes.Ok? ==> r[0].subtitle == Some(Message(user.error))
    ensures user.Ok? && notes.Err? ==> r[0].subtitle == Some(Message(notes.error))
    ensures user.Err? && notes.Err? ==> r[0].subtitle == Some(Message(if userFailsFirst then user.error else notes.error))
  {
    if user.Ok? && notes.Ok? then
      if |notes.value.notes| == 0 then [Notice(NO_NOTES)] else NoteItems(notes.value.notes, user.value, sandbox, appLink)
    else
      var f := FirstFailure(user, notes, userFailsFirst);
      [Item(None, CONNECTION_ERROR, Some(Message(f)), None, NoAction)]
  }

  /** Note items link to the web client or the application as the settings ask,
      on the origin the service was created for. */
  lemma NoteItemLinks(notes: seq<Note>, user: User, sandbox: bool, appLink: bool, i: nat)
    requires i < |notes|
    requires Links.Plain(user.id) && Links.Plain(user.shardId) && '$' !in notes[i].guid
    ensures !appLink ==> (NoteItems(notes, user, sandbox, appLink)[i].action
      == Open(Links.BaseUrl(sandbox) + "/shard/" + user.shardId + "/nl/" + user.id + "/" + notes[i].guid))
    ensures appLink ==> (NoteItems(notes, user, sandbox, appLink)[i].action
      == Open("evernote:///view/" + user.id + "/" + user.shardId + "/" + notes[i].guid + "/" + notes[i].guid))
  {
    if appLink { Links.AppUrlShape(sandbox, notes[i], user); } else { Links.WebUrlShape(sandbox, notes[i], user); }
  }

  // ---------------------------------------------------------------------------
  // One keystroke, end to end
  // ---------------------------------------------------------------------------

  /** What the remote would answer to each call this keystroke may make, the
      clock when each call would settle, and which of the note search's two
      calls would fail first if both fail. */
  datatype World = World(
    user: Remote<User>,
    notes: Remote<NoteList>,
    tags: Remote<seq<Named>>,
    notebooks: Remote<seq<Named>>,
    userDone: int,
    notesDone: int,
    tagsDone: int,
    notebooksDone: int,
    userFailsFirst: bool)

  /** The items shown, the service slot afterwards, and whether the remote was
      called. */
  datatype Step = Step(items: seq<Item>, slot: Option<Service>, called: bool)

  predicate SlotConsistent(slot: Option<Service>) {
    slot.Some? ==> Consistent(slot.value.cache)
  }

  /** A listing or a search on the service: the debounced handler run at once.
      The note search asks for the user before the notes; the two use
      different cache entries, so the order does not change what is stored. */
  function Listing(svc: Service, command: Command, now: int, world: World, appLink: bool): (s: Step)
    requires Consistent(svc.cache) && command != MainMenu
    ensures s.slot.Some? && Consistent(s.slot.value.cache)
    ensures s.slot.value.token == svc.token && s.slot.value.sandbox == svc.sandbox
    ensures |s.items| >= 1
    ensures command.ListTags? ==> (var r := GetTags(svc, command.tagFilter, now, world.tagsDone, world.tags);
      s == Step(TagsView(r.result), Some(r.service), r.called))
    ensures command.ListNotebooks? ==> (var r := GetNotebooks(svc, command.notebookFilter, now, world.notebooksDone, world.notebooks);
      s == Step(NotebooksView(r.result), Some(r.service), r.called))
    ensures command.Search? ==> (var u := GetUser(svc, now, world.userDone, world.user);
      var n := SearchNotes(u.service, command.word, now, world.notesDone, world.notes);
      s == Step(NotesView(u.result, n.result, world.userFailsFirst, svc.sandbox, appLink), Some(n.service), u.called || n.called))
    ensures command.Search? ==> (s.called <==>
      Hit(svc.cache, USER_KEY, now).None? || Hit(svc.cache, NotesKey(command.word), now).None?)
  {
    match command
    case ListTags(filter) =>
      var r := GetTags(svc, filter, now, world.tagsDone, world.tags);
      Step(TagsView(r.result), Some(r.service), r.called)
    case ListNotebooks(filter) =>
      var r := GetNotebooks(svc, filter, now, world.notebooksDone, world.notebooks);
      Step(NotebooksView(r.result), Some(r.service), r.called)
    case Search(word) =>
      var u := GetUser(svc, now, world.userDone, world.user);
      var n := SearchNotes(u.service, word, now, world.notesDone, world.notes);
      Step(NotesView(u.result, n.result, world.userFailsFirst, n.service.sandbox, appLink), Some(n.service), u.called || n.called)
  }

  /** `plugin({ term, display, settings, ... })`: nothing without the keyword,
      the action-required item without a token, the menu for an empty argument,
      and otherwise the listing on the singleton service. */
  function Handle(slot: Option<Service>, term: string, settings: Settings, now: int, world: World): (s: Step)
    requires SlotConsistent(slot)
    ensures SlotConsistent(s.slot)
    ensures Decide(term, settings) == Silent ==> s == Step([], slot, false)
    ensures Decide(term, settings) == ActionRequired ==> s == Step([ACTION_REQUIRED], slot, false)
    ensures Decide(term, settings) == Run(MainMenu) ==> s == Step(MAIN_MENU, slot, false)
    ensures slot.Some? ==> s.slot.Some? && s.slot.value.token == slot.value.token && s.slot.value.sandbox == slot.value.sandbox
    ensures |s.items| >= 1 <==> MatchKeyword(term).Some?
    ensures Decide(term, settings).Run? && Decide(term, settings).command != MainMenu ==>
      s == Listing(GetInstance(slot, settings.accessToken.value, settings.sandbox), Decide(term, settings).command,
                   now, world, settings.openLinksOnApplication)
    ensures slot.None? && Decide(term, settings).Run? && Decide(term, settings).command != MainMenu ==>
      (s.slot.Some? && s.slot.value.token == settings.accessToken.value && s.slot.value.sandbox == settings.sandbox)
  {
    match Decide(term, settings)
    case Silent => Step([], slot, false)
    case ActionRequired => Step([ACTION_REQUIRED], slot, false)
    case Run(command) =>
      if command == MainMenu then Step(MAIN_MENU, slot, false)
      else Listing(GetInstance(slot, settings.accessToken.value, settings.sandbox), command, now, world, settings.openLinksOnApplication)
  }

  /** A tag listing fetched from the remote is shown again, unchanged and
      without calling the remote, for two hours after the fetch settled. */
  lemma TagsListingRepeats(svc: Service, filter: string, t1: int, t2: int, w1: World, w2: World, appLink: bool)
    requires Consistent(svc.cache)
    requires Listing(svc, ListTags(filter), t1, w1, appLink).called && w1.tags.Returned?
    requires t2 <= w1.tagsDone + TAGS_TTL * 1000
    ensures !Listing(Listing(svc, ListTags(filter), t1, w1, appLink).slot.value, ListTags(filter), t2, w2, appLink).called
    ensures Listing(Listing(svc, ListTags(filter), t1, w1, appLink).slot.value, ListTags(filter), t2, w2, appLink).items
         == Listing(svc, ListTags(filter), t1, w1, appLink).items
  {
    var r1 := GetTags(svc, filter, t1, w1.tagsDone, w1.tags);
    var shaped := ShapeTags(w1.tags.value, filter);
    GetAfterSet(svc.cache, TagsKey(filter), TagsValue(shaped), TAGS_TTL, w1.tagsDone, t2);
    var r2 := GetTags(r1.service, filter, t2, w2.tagsDone, w2.tags);
    assert Get(r1.service.cache, TagsKey(filter), t2) == Some(TagsValue(shaped));
    assert r2.result == Ok(shaped);
  }

  /** Typing the same tag listing again within two hours of the fetch settling
      shows the same items without calling the remote, whatever the remote
      would now answer. */
  lemma TagListingRepeats(slot: Option<Service>, term: string, settings: Settings, t1: int, t2: int, w1: World, w2: World)
    requires SlotConsistent(slot)
    requires Decide(term, settings).Run? && Decide(term, settings).command.ListTags?
    requires Handle(slot, term, settings, t1, w1).called && w1.tags.Returned?
    requires t2 <= w1.tagsDone + TAGS_TTL * 1000
    ensures !Handle(Handle(slot, term, settings, t1, w1).slot, term, settings, t2, w2).called
    ensures Handle(Handle(slot, term, settings, t1, w1).slot, term, settings, t2, w2).items == Handle(slot, term, settings, t1, w1).items
  {
    var command := Decide(term, settings).command;
    var svc := GetInstance(slot, settings.accessToken.value, settings.sandbox);
    var appLink := settings.openLinksOnApplication;
    var s1 := Listing(svc, command, t1, w1, appLink);
    assert Handle(slot, term, settings, t1, w1) == s1;
    assert Handle(s1.slot, term, settings, t2, w2) == Listing(s1.slot.value, command, t2, w2, appLink);
    TagsListingRepeats(svc, command.tagFilter, t1, t2, w1, w2, appLink);
  }
}

=== FILE: records.dfy ===
/** The records of the remote note service that the plugin reads, cut down to the
    fields it uses. */
module Records {

  /** A tag or a notebook: both are listed, filtered and sorted by `name`. */
  datatype Named = Named(guid: string, name: string)

  /** A note of a search result. */
  datatype Note = Note(guid: string, title: string)

  /** The metadata list a note search returns. */
  datatype NoteList = NoteList(notes: seq<Note>)

  /** The authenticated user; `id` is carried as the text it is rendered to. */
  datatype User = User(id: string, shardId: string)
}

=== FILE: service.dfy ===
/** The cached access layer: a service value owning its credentials and its
    cache, five read operations that consult the cache before the remote
    service, and the first-call-wins singleton the plugin obtains it through. */
module Service {

  import opened Wrappers
  import opened Text
  import opened Records
  import opened Errors
  import opened Shaping
  import opened Cache

  /** What the cache holds: one kind of value per operation. */
  datatype CacheValue =
    | NotesValue(list: NoteList)
    | TagsValue(tags: seq<Named>)
    | NotebooksValue(notebooks: seq<Named>)
    | ContentValue(content: string)
    | UserValue(user: User)

  /** `if (cached)`: lists and records are always truthy; note content is a
      string, and the empty string is falsy. */
  predicate Truthy(v: CacheValue) {
    !(v.ContentValue? && v.content == "")
  }

  datatype Service = Service(token: string, sandbox: bool, cache: Store<CacheValue>)

  /** Time-to-live of each kind of entry, in seconds. */
  const NOTES_TTL := 3600
  const TAGS_TTL := 7200
  const NOTEBOOKS_TTL := 7200
  const USER_TTL := 3600
  const NOTE_CONTENTS_TTL := 7200

  // ---------------------------------------------------------------------------
  // Cache keys
  // ---------------------------------------------------------------------------

  const NOTES_PREFIX := "notes_"
  const TAGS_PREFIX := "tags_"
  const NOTEBOOKS_PREFIX := "nb_"
  const CONTENTS_PREFIX := "note_contents_"
  const USER_KEY := "user"

  function NotesKey(term: string): string { NOTES_PREFIX + term }
  function TagsKey(filter: string): string { TAGS_PREFIX + filter }
  function NotebooksKey(filter: string): string { NOTEBOOKS_PREFIX + filter }
  function ContentsKey(guid: string): string { CONTENTS_PREFIX + guid }

  /** The key a value of each kind is stored under: its operation's prefix. */
  predicate Fits(key: string, v: CacheValue) {
    match v
    case NotesValue(_) => StartsWith(key, NOTES_PREFIX)
    case TagsValue(_) => StartsWith(key, TAGS_PREFIX)
    case NotebooksValue(_) => StartsWith(key, NOTEBOOKS_PREFIX)
    case ContentValue(_) => StartsWith(key, CONTENTS_PREFIX)
    case UserValue(_) => key == USER_KEY
  }

  /** Every entry sits under a key of its own operation. The cache starts empty
      and only the five operations below write it, each under its own key. */
  predicate Consistent(cache: Store<CacheValue>) {
    forall k :: k in cache ==> Fits(k, cache[k].value)
  }

  /** Keys of different operations never coincide; keys of one operation
      coincide only for equal arguments. */
  lemma KeysDistinct(a: string, b: string)
    ensures NotesKey(a) != TagsKey(b) && NotesKey(a) != NotebooksKey(b) && NotesKey(a) != ContentsKey(b) && NotesKey(a) != USER_KEY
    ensures TagsKey(a) != NotebooksKey(b) && TagsKey(a) != ContentsKey(b) && TagsKey(a) != USER_KEY
    ensures NotebooksKey(a) != ContentsKey(b) && NotebooksKey(a) != USER_KEY
    ensures ContentsKey(a) != USER_KEY
    ensures NotesKey(a) == NotesKey(b) ==> a == b
    ensures TagsKey(a) == TagsKey(b) ==> a == b
    ensures NotebooksKey(a) == NotebooksKey(b) ==> a == b
    ensures ContentsKey(a) == ContentsKey(b) ==> a == b
  {
    assert NotesKey(a)[0] == 'n' && NotesKey(a)[1] == 'o' && NotesKey(a)[4] == 's';
    assert TagsKey(a)[0] == 't' && TagsKey(b)[0] == 't';
    assert NotebooksKey(a)[0] == 'n' && NotebooksKey(a)[1] == 'b' && NotebooksKey(b)[1] == 'b';
    assert ContentsKey(a)[1] == 'o' && ContentsKey(a)[4] == '_' && ContentsKey(b)[1] == 'o' && ContentsKey(b)[4] == '_';
    assert USER_KEY[0] == 'u';
    PrefixCancels(NOTES_PREFIX, a, b);
    PrefixCancels(TAGS_PREFIX, a, b);
    PrefixCancels(NOTEBOOKS_PREFIX, a, b);
    PrefixCancels(CONTENTS_PREFIX, a, b);
  }

  lemma PrefixCancels(p: string, a: string, b: string)
    ensures p + a == p + b ==> a == b
  {
    if p + a == p + b {
      assert a == (p + a)[|p|..];
      assert b == (p + b)[|p|..];
    }
  }

  /** The filter term is part of the key as typed: `getTags("A")` and
      `getTags("a")` are cached apart although they match the same tags. */
  lemma CaseMattersInKeys()
    ensures TagsKey("A") != TagsKey("a") && NotebooksKey("A") != NotebooksKey("a")
  {
    KeysDistinct("A", "a");
    assert "A" != "a";
  }

  /** A value of the wrong kind never sits under an operation's key. */
  lemma FitsKind(key: string, v: CacheValue)
    requires Fits(key, v)
    ensures StartsWith(key, NOTES_PREFIX) ==> v.NotesValue?
    ensures StartsWith(key, TAGS_PREFIX) ==> v.TagsValue?
    ensures StartsWith(key, NOTEBOOKS_PREFIX) ==> v.NotebooksValue?
    ensures StartsWith(key, CONTENTS_PREFIX) ==> v.ContentValue?
    ensures key == USER_KEY ==> v.UserValue?
  {
    if StartsWith(key, NOTES_PREFIX) { assert key[0] == 'n' && key[1] == 'o' && key[4] == 's'; }
    if StartsWith(key, TAGS_PREFIX) { assert key[0] == 't'; }
    if StartsWith(key, NOTEBOOKS_PREFIX) { assert key[0] == 'n' && key[1] == 'b'; }
    if StartsWith(key, CONTENTS_PREFIX) { assert key[1] == 'o' && key[4] == '_'; }
    if key == USER_KEY { assert key[0] == 'u' && |key| == 4; }
  }

  lemma KeysHavePrefixes(arg: string)
    ensures StartsWith(NotesKey(arg), NOTES_PREFIX) && StartsWith(TagsKey(arg), TAGS_PREFIX)
    ensures StartsWith(NotebooksKey(arg), NOTEBOOKS_PREFIX) && StartsWith(ContentsKey(arg), CONTENTS_PREFIX)
  {
  }

  // ---------------------------------------------------------------------------
  // The singleton
  // ---------------------------------------------------------------------------

  /** A service freshly constructed: its cache is empty. */
  function NewService(token: string, sandbox: bool): (s: Service)
    ensures s.token == token && s.sandbox == sandbox && s.cache == map[]
    ensures Consistent(s.cache)
  {
    Service(token, sandbox, map[])
  }

  /** `getInstance(token, sandbox)` given the module's `instance` slot: the
      first call constructs the service and every later call returns that one,
      ignoring its arguments. */
  function GetInstance(slot: Option<Service>, token: string, sandbox: bool): (s: Service)
    ensures slot.Some? ==> s == slot.value
    ensures slot.None? ==> s == NewService(token, sandbox)
  {
    if slot.Some? then slot.value else NewService(token, sandbox)
  }

  /** The credentials a call to `getInstance` passes. */
  datatype Credentials = Credentials(token: string, sandbox: bool)

  /** The slot after a series of `getInstance` calls. */
  function AfterCalls(slot: Option<Service>, calls: seq<Credentials>): Option<Service>
    decreases |calls|
  {
    if |calls| == 0 then slot
    else AfterCalls(Some(GetInstance(slot, calls[0].token, calls[0].sandbox)), calls[1..])
  }

  /** First call wins: after any series of calls the instance carries the
      credentials of the first one, whatever the later ones passed. */
  lemma {:induction false} FirstCallWins(calls: seq<Credentials>)
    requires |calls| > 0
    ensures AfterCalls(None, calls) == Some(NewService(calls[0].token, calls[0].sandbox))
  {
    StableOnceSet(NewService(calls[0].token, calls[0].sandbox), calls[1..]);
  }

  lemma {:induction false} StableOnceSet(s: Service, calls: seq<Credentials>)
    ensures AfterCalls(Some(s), calls) == Some(s)
    decreases |calls|
  {
    if |calls| > 0 {
      StableOnceSet(s, calls[1..]);
    }
  }

  // ---------------------------------------------------------------------------
  // The operations
  // ---------------------------------------------------------------------------

  /** What an operation yields: its result or raised failure, the service as it
      is afterwards, and whether it called the remote service.

      Every operation reads the clock twice: `now` when it looks the key up,
      and `done` when the awaited remote call has settled and the answer is
      stored. A hit does not use `done`. */
  datatype Reply<+T> = Reply(result: Result<T, Failure>, service: Service, called: bool)

  /** The value `get(key)` yields when it is truthy; any other lookup is a miss. */
  function Hit(cache: Store<CacheValue>, key: string, now: int): (r: Option<CacheValue>)
    ensures r.Some? <==> Get(cache, key, now).Some? && Truthy(Get(cache, key, now).value)
    ensures r.Some? ==> Consistent(cache) ==> Fits(key, r.value)
    ensures r.Some? ==> r == Get(cache, key, now)
  {
    match Get(cache, key, now)
    case Some(v) => if Truthy(v) then Some(v) else None
    case None => None
  }

  /** `this.cache.set(key, value, ttl)`, run once the remote call has settled:
      the expiry counts from `done`, the clock at that moment. */
  function Remember(svc: Service, key: string, value: CacheValue, ttl: nat, done: int): (s: Service)
    requires Consistent(svc.cache) && Fits(key, value)
    ensures Consistent(s.cache)
    ensures s.token == svc.token && s.sandbox == svc.sandbox
  {
    svc.(cache := Set(svc.cache, key, value, ttl, done))
  }

  /** `searchNotes(term)`: the search result, served from the cache for an hour. */
  function SearchNotes(svc: Service, term: string, now: int, done: int, remote: Remote<NoteList>): (r: Reply<NoteList>)
    requires Consistent(svc.cache)
    ensures r.called <==> Hit(svc.cache, NotesKey(term), now).None?
    ensures !r.called ==> r.service == svc && r.result.Ok? && Get(svc.cache, NotesKey(term), now) == Some(NotesValue(r.result.value))
    ensures r.called && remote.Returned? ==> (r.result == Ok(remote.value)
      && r.service.cache == Set(svc.cache, NotesKey(term), NotesValue(remote.value), NOTES_TTL, done))
    ensures r.result.Err? <==> r.called && remote.Threw?
    ensures r.result.Err? ==> r.result.error == HandleErrors(remote.error) && r.service == svc
    ensures Consistent(r.service.cache) && r.service.token == svc.token && r.service.sandbox == svc.sandbox
  {
    var key := NotesKey(term);
    KeysHavePrefixes(term);
    match Hit(svc.cache, key, now)
    case Some(v) =>
      FitsKind(key, v);
      Reply(Ok(v.list), svc, false)
    case None =>
      match remote
      case Returned(list) => Reply(Ok(list), Remember(svc, key, NotesValue(list), NOTES_TTL, done), true)
      case Threw(e) => Reply(Err(HandleErrors(e)), svc, true)
  }

  /** `getTags(filterTerm)`: the shaped tag listing, served from the cache for
      two hours under the filter term as typed. */
  function GetTags(svc: Service, filter: string, now: int, done: int, remote: Remote<seq<Named>>): (r: Reply<seq<Named>>)
    requires Consistent(svc.cache)
    ensures r.called <==> Hit(svc.cache, TagsKey(filter), now).None?
    ensures !r.called ==> r.service == svc && r.result.Ok? && Get(svc.cache, TagsKey(filter), now) == Some(TagsValue(r.result.value))
    ensures r.called && remote.Returned? ==> (r.result == Ok(ShapeTags(remote.value, filter))
      && r.service.cache == Set(svc.cache, TagsKey(filter), TagsValue(ShapeTags(remote.value, filter)), TAGS_TTL, done))
    ensures r.result.Err? <==> r.called && remote.Threw?
    ensures r.result.Err? ==> r.result.error == HandleErrors(remote.error) && r.service == svc
    ensures Consistent(r.service.cache) && r.service.token == svc.token && r.service.sandbox == svc.sandbox
  {
    var key := TagsKey(filter);
    KeysHavePrefixes(filter);
    match Hit(svc.cache, key, now)
    case Some(v) =>
      FitsKind(key, v);
      Reply(Ok(v.tags), svc, false)
    case None =>
      match remote
      case Returned(tags) =>
        var shaped := ShapeTags(tags, filter);
        Reply(Ok(shaped), Remember(svc, key, TagsValue(shaped), TAGS_TTL, done), true)
      case Threw(e) => Reply(Err(HandleErrors(e)), svc, true)
  }

  /** `getNotebooks(filterTerm)`: the shaped notebook listing, served from the
      cache for two hours. */
  function GetNotebooks(svc: Service, filter: string, now: int, done: int, remote: Remote<seq<Named>>): (r: Reply<seq<Named>>)
    requires Consistent(svc.cache)
    ensures r.called <==> Hit(svc.cache, NotebooksKey(filter), now).None?
    ensures !r.called ==> r.service == svc && r.result.Ok? && Get(svc.cache, NotebooksKey(filter), now) == Some(NotebooksValue(r.result.value))
    ensures r.called && remote.Returned? ==> (r.result == Ok(ShapeNotebooks(remote.value, filter))
      && r.service.cache == Set(svc.cache, NotebooksKey(filter), NotebooksValue(ShapeNotebooks(remote.value, filter)), NOTEBOOKS_TTL, done))
    ensures r.result.Err? <==> r.called && remote.Threw?
    ensures r.result.Err? ==> r.result.error == HandleErrors(remote.error) && r.service == svc
    ensures Consistent(r.service.cache) && r.service.token == svc.token && r.service.sandbox == svc.sandbox
  {
    var key := NotebooksKey(filter);
    KeysHavePrefixes(filter);
    match Hit(svc.cache, key, now)
    case Some(v) =>
      FitsKind(key, v);
      Reply(Ok(v.notebooks), svc, false)
    case None =>
      match remote
      case Returned(notebooks) =>
        var shaped := ShapeNotebooks(notebooks, filter);
        Reply(Ok(shaped), Remember(svc, key, NotebooksValue(shaped), NOTEBOOKS_TTL, done), true)
      case Threw(e) => Reply(Err(HandleErrors(e)), svc, true)
  }

  /** `getNoteContent(guid)`: the content verbatim, served from the cache for two
      hours unless it is empty. This call is not under the request guard, and
      only the guard raises the timeout, so it never fails for taking too long. */
  function GetNoteContent(svc: Service, guid: string, now: int, done: int, remote: Remote<string>): (r: Reply<string>)
    requires Consistent(svc.cache)
    requires remote.Threw? ==> remote.error != RequestTimeout
    ensures r.called <==> Hit(svc.cache, ContentsKey(guid), now).None?
    ensures !r.called ==> (r.service == svc && r.result.Ok? && r.result.value != ""
      && Get(svc.cache, ContentsKey(guid), now) == Some(ContentValue(r.result.value)))
    ensures r.called && remote.Returned? ==> (r.result == Ok(remote.value)
      && r.service.cache == Set(svc.cache, ContentsKey(guid), ContentValue(remote.value), NOTE_CONTENTS_TTL, done))
    ensures r.result.Err? <==> r.called && remote.Threw?
    ensures r.result.Err? ==> r.result.error == HandleErrors(remote.error) && r.service == svc
    ensures r.result.Err? ==> r.result.error != TookTooLong
    ensures Consistent(r.service.cache) && r.service.token == svc.token && r.service.sandbox == svc.sandbox
  {
    var key := ContentsKey(guid);
    KeysHavePrefixes(guid);
    match Hit(svc.cache, key, now)
    case Some(v) =>
      FitsKind(key, v);
      Reply(Ok(v.content), svc, false)
    case None =>
      match remote
      case Returned(content) => Reply(Ok(content), Remember(svc, key, ContentValue(content), NOTE_CONTENTS_TTL, done), true)
      case Threw(e) => Reply(Err(HandleErrors(e)), svc, true)
  }

  /** `getUser()`: the authenticated user, served from the cache for an hour
      under the one constant key. */
  function GetUser(svc: Service, now: int, done: int, remote: Remote<User>): (r: Reply<User>)
    requires Consistent(svc.cache)
    ensures r.called <==> Hit(svc.cache, USER_KEY, now).None?
    ensures !r.called ==> r.service == svc && r.result.Ok? && Get(svc.cache, USER_KEY, now) == Some(UserValue(r.result.value))
    ensures r.called && remote.Returned? ==> (r.result == Ok(remote.value)
      && r.service.cache == Set(svc.cache, USER_KEY, UserValue(remote.value), USER_TTL, done))
    ensures r.result.Err? <==> r.called && remote.Threw?
    ensures r.result.Err? ==> r.result.error == HandleErrors(remote.error) && r.service == svc
    ensures Consistent(r.service.cache) && r.service.token == svc.token && r.service.sandbox == svc.sandbox
  {
    match Hit(svc.cache, USER_KEY, now)
    case Some(v) =>
      FitsKind(USER_KEY, v);
      Reply(Ok(v.user), svc, false)
    case None =>
      match remote
      case Returned(user) => Reply(Ok(user), Remember(svc, USER_KEY, UserValue(user), USER_TTL, done), true)
      case Threw(e) => Reply(Err(HandleErrors(e)), svc, true)
  }

  // ---------------------------------------------------------------------------
  // The five operations as one: what every cached read has in common
  // ---------------------------------------------------------------------------

  /** A call of one of the five operations with its argument. */
  datatype Request =
    | SearchNotesRequest(term: string)
    | TagsRequest(tagFilter: string)
    | NotebooksRequest(notebookFilter: string)
    | ContentRequest(guid: string)
    | UserRequest

  function KeyOf(req: Request): string {
    match req
    case SearchNotesRequest(term) => NotesKey(term)
    case TagsRequest(filter) => TagsKey(filter)
    case NotebooksRequest(filter) => NotebooksKey(filter)
    case ContentRequest(guid) => ContentsKey(guid)
    case UserRequest => USER_KEY
  }

  function TtlOf(req: Request): nat {
    match req
    case SearchNotesRequest(_) => NOTES_TTL
    case TagsRequest(_) => TAGS_TTL
    case NotebooksRequest(_) => NOTEBOOKS_TTL
    case ContentRequest(_) => NOTE_CONTENTS_TTL
    case UserRequest => USER_TTL
  }

  /** What an operation makes of a fresh remote value before returning and
      storing it: tags and notebooks are shaped, everything else is kept. */
  function Shape(req: Request, v: CacheValue): CacheValue {
    match (req, v)
    case (TagsRequest(filter), TagsValue(tags)) => TagsValue(ShapeTags(tags, filter))
    case (NotebooksRequest(filter), NotebooksValue(notebooks)) => NotebooksValue(ShapeNotebooks(notebooks, filter))
    case _ => v
  }

  /** Two different requests never share a cache entry. */
  lemma KeyOfInjective(a: Request, b: Request)
    requires KeyOf(a) == KeyOf(b)
    ensures a == b
  {
    match a {
      case SearchNotesRequest(x) =>
        match b {
          case SearchNotesRequest(y) => KeysDistinct(x, y);
          case TagsRequest(y) => KeysDistinct(x, y);
          case NotebooksRequest(y) => KeysDistinct(x, y);
          case ContentRequest(y) => KeysDistinct(x, y);
          case UserRequest => KeysDistinct(x, x);
        }
      case TagsRequest(x) =>
        match b {
          case SearchNotesRequest(y) => KeysDistinct(y, x);
          case TagsRequest(y) => KeysDistinct(x, y);
          case NotebooksRequest(y) => KeysDistinct(x, y);
          case ContentRequest(y) => KeysDistinct(x, y);
          case UserRequest => KeysDistinct(x, x);
        }
      case NotebooksRequest(x) =>
        match b {
          case SearchNotesRequest(y) => KeysDistinct(y, x);
          case TagsRequest(y) => KeysDistinct(y, x);
          case NotebooksRequest(y) => KeysDistinct(x, y);
          case ContentRequest(y) => KeysDistinct(x, y);
          case UserRequest => KeysDistinct(x, x);
        }
      case ContentRequest(x) =>
        match b {
          case SearchNotesRequest(y) => KeysDistinct(y, x);
          case TagsRequest(y) => KeysDistinct(y, x);
          case NotebooksRequest(y) => KeysDistinct(y, x);
          case ContentRequest(y) => KeysDistinct(x, y);
          case UserRequest => KeysDistinct(x, x);
        }
      case UserRequest =>
        match b {
          case SearchNotesRequest(y) => KeysDistinct(y, y);
          case TagsRequest(y) => KeysDistinct(y, y);
          case NotebooksRequest(y) => KeysDistinct(y, y);
          case ContentRequest(y) => KeysDistinct(y, y);
          case UserRequest =>
        }
    }
  }

  /** What the remote can answer to a request: a value of the request's kind,
      or an error, which for the unguarded content fetch is never the timeout. */
  predicate Admissible(req: Request, raw: Remote<CacheValue>) {
    && (raw.Returned? ==> Fits(KeyOf(req), raw.value))
    && (req.ContentRequest? && raw.Threw? ==> raw.error != RequestTimeout)
  }

  /** The request's own operation on `svc`, its result seen as a cache value. */
  function Perform(svc: Service, req: Request, now: int, done: int, raw: Remote<CacheValue>): (r: Reply<CacheValue>)
    requires Consistent(svc.cache)
    requires Admissible(req, raw)
    ensures r.called <==> Hit(svc.cache, KeyOf(req), now).None?
    ensures !r.called ==> r.service == svc && r.result.Ok? && Hit(svc.cache, KeyOf(req), now) == Some(r.result.value)
    ensures r.called && raw.Returned? ==> (r.result == Ok(Shape(req, raw.value))
      && r.service.cache == Set(svc.cache, KeyOf(req), r.result.value, TtlOf(req), done))
    ensures r.result.Err? <==> r.called && raw.Threw?
    ensures r.result.Err? ==> r.result.error == HandleErrors(raw.error) && r.service == svc
    ensures req.ContentRequest? && r.result.Err? ==> r.result.error != TookTooLong
    ensures Consistent(r.service.cache) && r.service.token == svc.token && r.service.sandbox == svc.sandbox
  {
    match req
    case SearchNotesRequest(term) =>
      KeysHavePrefixes(term);
      var remote := match raw case Returned(v) => (FitsKind(KeyOf(req), v); Returned(v.list)) case Threw(e) => Threw(e);
      var r := SearchNotes(svc, term, now, done, remote);
      Reply(if r.result.Ok? then Ok(NotesValue(r.result.value)) else Err(r.result.error), r.service, r.called)
    case TagsRequest(filter) =>
      KeysHavePrefixes(filter);
      var remote := match raw case Returned(v) => (FitsKind(KeyOf(req), v); Returned(v.tags)) case Threw(e) => Threw(e);
      var r := GetTags(svc, filter, now, done, remote);
      Reply(if r.result.Ok? then Ok(TagsValue(r.result.value)) else Err(r.result.error), r.service, r.called)
    case NotebooksRequest(filter) =>
      KeysHavePrefixes(filter);
      var remote := match raw case Returned(v) => (FitsKind(KeyOf(req), v); Returned(v.notebooks)) case Threw(e) => Threw(e);
      var r := GetNotebooks(svc, filter, now, done, remote);
      Reply(if r.result.Ok? then Ok(NotebooksValue(r.result.value)) else Err(r.result.error), r.service, r.called)
    case ContentRequest(guid) =>
      KeysHavePrefixes(guid);
      var remote := match raw case Returned(v) => (FitsKind(KeyOf(req), v); Returned(v.content)) case Threw(e) => Threw(e);
      var r := GetNoteContent(svc, guid, now, done, remote);
      Reply(if r.result.Ok? then Ok(ContentValue(r.result.value)) else Err(r.result.error), r.service, r.called)
    case UserRequest =>
      KeysHavePrefixes("");
      var remote := match raw case Returned(v) => (FitsKind(KeyOf(req), v); Returned(v.user)) case Threw(e) => Threw(e);
      var r := GetUser(svc, now, done, remote);
      Reply(if r.result.Ok? then Ok(UserValue(r.result.value)) else Err(r.result.error), r.service, r.called)
  }

  /** A hit does not consult the remote: whatever the remote would have done,
      and whenever it would have settled, the reply is the same. */
  lemma HitIgnoresRemote(svc: Service, req: Request, now: int, done1: int, done2: int,
                         raw1: Remote<CacheValue>, raw2: Remote<CacheValue>)
    requires Consistent(svc.cache)
    requires Admissible(req, raw1)
    requires Admissible(req, raw2)
    requires Hit(svc.cache, KeyOf(req), now).Some?
    ensures Perform(svc, req, now, done1, raw1) == Perform(svc, req, now, done2, raw2)
  {
  }

  /** Asking again within the time-to-live of a value just fetched is served
      from the cache: the remote is not called and the answer is the same. The
      time-to-live counts from when the first call settled, `d1`. */
  lemma RepeatWithinTtl(svc: Service, req: Request, t1: int, d1: int, t2: int, d2: int,
                        raw1: Remote<CacheValue>, raw2: Remote<CacheValue>)
    requires Consistent(svc.cache)
    requires Admissible(req, raw1)
    requires Admissible(req, raw2)
    requires Perform(svc, req, t1, d1, raw1).called && Perform(svc, req, t1, d1, raw1).result.Ok?
    requires Truthy(Perform(svc, req, t1, d1, raw1).result.value)
    requires t2 <= d1 + TtlOf(req) * 1000
    ensures !Perform(Perform(svc, req, t1, d1, raw1).service, req, t2, d2, raw2).called
    ensures Perform(Perform(svc, req, t1, d1, raw1).service, req, t2, d2, raw2).result == Perform(svc, req, t1, d1, raw1).result
  {
    var r1 := Perform(svc, req, t1, d1, raw1);
    GetAfterSet(svc.cache, KeyOf(req), r1.result.value, TtlOf(req), d1, t2);
  }

  /** Once the time-to-live has elapsed, counted from when the first call
      settled, the entry is gone and the remote is called again. */
  lemma RepeatAfterTtl(svc: Service, req: Request, t1: int, d1: int, t2: int, d2: int,
                       raw1: Remote<CacheValue>, raw2: Remote<CacheValue>)
    requires Consistent(svc.cache)
    requires Admissible(req, raw1)
    requires Admissible(req, raw2)
    requires Perform(svc, req, t1, d1, raw1).called && Perform(svc, req, t1, d1, raw1).result.Ok?
    requires t2 > d1 + TtlOf(req) * 1000
    ensures Perform(Perform(svc, req, t1, d1, raw1).service, req, t2, d2, raw2).called
  {
    var r1 := Perform(svc, req, t1, d1, raw1);
    GetAfterSet(svc.cache, KeyOf(req), r1.result.value, TtlOf(req), d1, t2);
  }

  /** Empty note content is stored but never served: the next request for it,
      however soon, calls the remote again. */
  lemma EmptyContentRefetched(svc: Service, guid: string, t1: int, d1: int, t2: int, d2: int, raw2: Remote<CacheValue>)
    requires Consistent(svc.cache)
    requires Hit(svc.cache, ContentsKey(guid), t1).None?
    requires Admissible(ContentRequest(guid), raw2)
    ensures Perform(Perform(svc, ContentRequest(guid), t1, d1, Returned(ContentValue(""))).service, ContentRequest(guid), t2, d2, raw2).called
  {
    KeysHavePrefixes(guid);
    var r1 := Perform(svc, ContentRequest(guid), t1, d1, Returned(ContentValue("")));
    assert r1.service.cache[ContentsKey(guid)].value == ContentValue("");
  }

  /** An operation writes only its own entry: every other key reads as before,
      at every time. */
  lemma OthersUntouched(svc: Service, req: Request, now: int, done: int, raw: Remote<CacheValue>, other: Request, later: int)
    requires Consistent(svc.cache)
    requires Admissible(req, raw)
    requires other != req
    ensures Get(Perform(svc, req, now, done, raw).service.cache, KeyOf(other), later) == Get(svc.cache, KeyOf(other), later)
  {
    if KeyOf(other) == KeyOf(req) {
      KeyOfInjective(other, req);
    }
  }

  /** A different request in between does not disturb a cached answer. */
  lemma {:induction false} InterleavedRepeatHits(svc: Service, req: Request, other: Request,
                                                 t1: int, d1: int, t2: int, d2: int, t3: int, d3: int,
                                                 raw1: Remote<CacheValue>, raw2: Remote<CacheValue>, raw3: Remote<CacheValue>)
    requires Consistent(svc.cache)
    requires Admissible(req, raw1)
    requires Admissible(other, raw2)
    requires Admissible(req, raw3)
    requires other != req
    requires Perform(svc, req, t1, d1, raw1).called && Perform(svc, req, t1, d1, raw1).result.Ok?
    requires Truthy(Perform(svc, req, t1, d1, raw1).result.value)
    requires t3 <= d1 + TtlOf(req) * 1000
    ensures !Perform(Perform(Perform(svc, req, t1, d1, raw1).service, other, t2, d2, raw2).service, req, t3, d3, raw3).called
    ensures Perform(Perform(Perform(svc, req, t1, d1, raw1).service, other, t2, d2, raw2).service, req, t3, d3, raw3).result
         == Perform(svc, req, t1, d1, raw1).result
  {
    var r1 := Perform(svc, req, t1, d1, raw1);
    var r2 := Perform(r1.service, other, t2, d2, raw2);
    GetAfterSet(svc.cache, KeyOf(req), r1.result.value, TtlOf(req), d1, t3);
    OthersUntouched(r1.service, other, t2, d2, raw2, req, t3);
  }
}

=== FILE: shaping.dfy ===
/** How the services shape a tag or notebook listing: a case-insensitive
    "starts with" filter, lodash's `orderBy(list, ['name'], ['asc'])` (a stable
    ascending sort on the names' code-unit order) and `slice(0, n)`. */
module Shaping {

  import opened Text
  import opened Records

  /** The filter of both services: the lower-cased name starts with the
      lower-cased filter term. */
  predicate Matches(item: Named, term: string) {
    StartsWith(Lower(item.name), Lower(term))
  }

  /** `list.filter(item => Matches(item, term))`. */
  function KeepMatching(list: seq<Named>, term: string): (r: seq<Named>)
    ensures |r| <= |list|
    ensures forall i :: 0 <= i < |r| ==> Matches(r[i], term)
    ensures multiset(r) <= multiset(list)
    ensures forall x :: x in list && Matches(x, term) ==> x in r
  {
    if |list| == 0 then []
    else
      assert list == [list[0]] + list[1..];
      if Matches(list[0], term) then [list[0]] + KeepMatching(list[1..], term)
      else KeepMatching(list[1..], term)
  }

  /** The filter is applied piecewise, so it keeps the input order. */
  lemma {:induction false} KeepMatchingConcat(a: seq<Named>, b: seq<Named>, term: string)
    ensures KeepMatching(a + b, term) == KeepMatching(a, term) + KeepMatching(b, term)
    decreases |a|
  {
    if |a| == 0 {
      assert a + b == b;
    } else {
      assert (a + b)[0] == a[0];
      assert (a + b)[1..] == a[1..] + b;
      KeepMatchingConcat(a[1..], b, term);
    }
  }

  /** `if (filterTerm) list = list.filter(...)`: the empty string is falsy, so it
      filters nothing. */
  function FilterByTerm(list: seq<Named>, term: string): (r: seq<Named>)
    ensures term == "" ==> r == list
    ensures term != "" ==> r == KeepMatching(list, term)
  {
    if term == "" then list else KeepMatching(list, term)
  }

  // ---------------------------------------------------------------------------
  // Stable ascending sort by name
  // ---------------------------------------------------------------------------

  /** Names never decrease along `s`. */
  predicate SortedByName(s: seq<Named>) {
    forall i, j :: 0 <= i < j < |s| ==> !Less(s[j].name, s[i].name)
  }

  /** The items of `s` named exactly `name`, in order. */
  function WithName(s: seq<Named>, name: string): seq<Named> {
    if |s| == 0 then []
    else (if s[0].name == name then [s[0]] else []) + WithName(s[1..], name)
  }

  /** Inserts `x` before the first item that does not sort strictly before it,
      so that `x` stays ahead of the items with its own name. */
  function Insert(x: Named, s: seq<Named>): (r: seq<Named>)
    ensures multiset(r) == multiset(s) + multiset{x}
    ensures |r| == |s| + 1
  {
    if |s| == 0 || !Less(s[0].name, x.name) then [x] + s
    else
      assert s == [s[0]] + s[1..];
      [s[0]] + Insert(x, s[1..])
  }

  /** `_.orderBy(list, ['name'], ['asc'])`, as an insertion sort. */
  function SortByName(s: seq<Named>): (r: seq<Named>)
    ensures multiset(r) == multiset(s)
    ensures |r| == |s|
  {
    if |s| == 0 then []
    else
      assert s == [s[0]] + s[1..];
      Insert(s[0], SortByName(s[1..]))
  }

  lemma {:induction false} InsertSorted(x: Named, s: seq<Named>)
    requires SortedByName(s)
    ensures SortedByName(Insert(x, s))
    decreases |s|
  {
    if |s| == 0 {
    } else if !Less(s[0].name, x.name) {
      forall j | 0 <= j < |s| ensures !Less(s[j].name, x.name) {
        if j > 0 {
          NotLessTransitive(x.name, s[0].name, s[j].name);
        }
      }
      ConsSorted(x, s);
    } else {
      var t := Insert(x, s[1..]);
      assert SortedByName(s[1..]) by {
        forall i, j | 0 <= i < j < |s[1..]| ensures !Less(s[1..][j].name, s[1..][i].name) {
          assert s[1..][i] == s[i + 1] && s[1..][j] == s[j + 1];
        }
      }
      InsertSorted(x, s[1..]);
      HeadBelowInsert(x, s);
      ConsSorted(s[0], t);
    }
  }

  /** An item that sorts no later than every item of a sorted list can go in
      front of it. */
  lemma ConsSorted(h: Named, t: seq<Named>)
    requires SortedByName(t)
    requires forall j :: 0 <= j < |t| ==> !Less(t[j].name, h.name)
    ensures SortedByName([h] + t)
  {
    var r := [h] + t;
    forall i, j | 0 <= i < j < |r| ensures !Less(r[j].name, r[i].name) {
      assert r[j] == t[j - 1];
      if i > 0 {
        assert r[i] == t[i - 1];
      }
    }
  }

  /** Inserting an item that sorts after the head of a sorted list into its
      tail gives items none of which sorts before that head. */
  lemma HeadBelowInsert(x: Named, s: seq<Named>)
    requires |s| > 0 && SortedByName(s) && Less(s[0].name, x.name)
    ensures forall j :: 0 <= j < |Insert(x, s[1..])| ==> !Less(Insert(x, s[1..])[j].name, s[0].name)
  {
    var t := Insert(x, s[1..]);
    forall j | 0 <= j < |t| ensures !Less(t[j].name, s[0].name) {
      assert t[j] in multiset(t);
      if t[j] == x {
        LessTotal(x.name, s[0].name);
        LessIrreflexive(s[0].name);
        if Less(x.name, s[0].name) {
          LessTransitive(x.name, s[0].name, x.name);
          LessIrreflexive(x.name);
        }
      } else {
        assert t[j] in multiset(s[1..]);
        var k :| 0 <= k < |s[1..]| && s[1..][k] == t[j];
        assert s[k + 1] == t[j];
      }
    }
  }

  /** The sort's result is ascending by name. */
  lemma {:induction false} SortByNameSorted(s: seq<Named>)
    ensures SortedByName(SortByName(s))
    decreases |s|
  {
    if |s| > 0 {
      SortByNameSorted(s[1..]);
      InsertSorted(s[0], SortByName(s[1..]));
    }
  }

  lemma {:induction false} InsertWithName(x: Named, s: seq<Named>, name: string)
    ensures WithName(Insert(x, s), name) == (if x.name == name then [x] else []) + WithName(s, name)
    decreases |s|
  {
    if |s| == 0 || !Less(s[0].name, x.name) {
      assert ([x] + s)[1..] == s;
    } else {
      InsertWithName(x, s[1..], name);
      assert ([s[0]] + Insert(x, s[1..]))[1..] == Insert(x, s[1..]);
      if x.name == name {
        LessIrreflexive(x.name);
        assert s[0].name != name;
      }
    }
  }

  /** Stability: items with equal names keep their input order. */
  lemma {:induction false} SortByNameStable(s: seq<Named>, name: string)
    ensures WithName(SortByName(s), name) == WithName(s, name)
    decreases |s|
  {
    if |s| > 0 {
      SortByNameStable(s[1..], name);
      InsertWithName(s[0], SortByName(s[1..]), name);
    }
  }

  /** Stability, for every name at once. */
  lemma SortByNameStableAll(s: seq<Named>)
    ensures forall name :: WithName(SortByName(s), name) == WithName(s, name)
  {
    forall name {
      SortByNameStable(s, name);
    }
  }

  /** An already sorted list is left as it is. */
  lemma {:induction false} SortByNameOfSorted(s: seq<Named>)
    requires SortedByName(s)
    ensures SortByName(s) == s
    decreases |s|
  {
    if |s| > 0 {
      assert SortedByName(s[1..]) by {
        forall i, j | 0 <= i < j < |s[1..]| ensures !Less(s[1..][j].name, s[1..][i].name) {
          assert s[1..][i] == s[i + 1] && s[1..][j] == s[j + 1];
        }
      }
      SortByNameOfSorted(s[1..]);
      if |s| > 1 {
        assert !Less(s[1].name, s[0].name);
      }
    }
  }

  /** Three names showing upper-case letters sorting before lower-case ones, as
      code units order them. */
  lemma ExampleSort()
    ensures SortByName([Named("1", "Zeta"), Named("2", "alpha"), Named("3", "Beta")])
      == [Named("3", "Beta"), Named("1", "Zeta"), Named("2", "alpha")]
  {
    ExampleOrder();
    SortThree(Named("1", "Zeta"), Named("2", "alpha"), Named("3", "Beta"));
  }

  /** Three items listed middle, last, first come out first, middle, last. */
  lemma SortThree(a: Named, b: Named, c: Named)
    requires Less(c.name, a.name) && Less(a.name, b.name)
    ensures SortByName([a, b, c]) == [c, a, b]
  {
    LessTransitive(c.name, a.name, b.name);
    LessIrreflexive(a.name);
    if Less(b.name, a.name) {
      LessTransitive(a.name, b.name, a.name);
    }
    SortStep([c]);
    InsertFront(c, []);
    SortStep([b, c]);
    assert [b, c][1..] == [c];
    InsertPast(b, [c]);
    InsertFront(b, []);
    SortStep([a, b, c]);
    assert [a, b, c][1..] == [b, c];
    InsertPast(a, [c, b]);
    assert [c, b][1..] == [b];
    InsertFront(a, [b]);
  }

  lemma SortStep(s: seq<Named>)
    requires |s| > 0
    ensures SortByName(s) == Insert(s[0], SortByName(s[1..]))
  {
  }

  lemma InsertFront(x: Named, s: seq<Named>)
    requires |s| == 0 || !Less(s[0].name, x.name)
    ensures Insert(x, s) == [x] + s
  {
  }

  lemma InsertPast(x: Named, s: seq<Named>)
    requires |s| > 0 && Less(s[0].name, x.name)
    ensures Insert(x, s) == [s[0]] + Insert(x, s[1..])
  {
  }

  lemma ExampleOrder()
    ensures Less("Beta", "Zeta") && Less("Zeta", "alpha") && !Less("alpha", "Beta") && !Less("alpha", "Zeta")
  {
    assert "Beta"[0] == 'B' && "Zeta"[0] == 'Z' && "alpha"[0] == 'a';
  }

  // ---------------------------------------------------------------------------
  // Truncation and the two pipelines of the cached service
  // ---------------------------------------------------------------------------

  /** `list.slice(0, n)`. */
  function Take(list: seq<Named>, n: nat): (r: seq<Named>)
    ensures |r| == if |list| < n then |list| else n
    ensures r == list[..|r|]
  {
    if |list| <= n then list else list[..n]
  }

  const TAGS_MAX_RESULTS := 50

  /** The tag listing of the cached service: the matching tags, sorted by name,
      and of those the first 50. */
  function ShapeTags(tags: seq<Named>, term: string): (r: seq<Named>)
    ensures var kept := FilterByTerm(tags, term);
      |r| == (if |kept| < TAGS_MAX_RESULTS then |kept| else TAGS_MAX_RESULTS)
    ensures SortedByName(r)
    ensures r == SortByName(FilterByTerm(tags, term))[..|r|]
    ensures term != "" ==> forall i :: 0 <= i < |r| ==> Matches(r[i], term)
    ensures multiset(r) <= multiset(tags)
    ensures |FilterByTerm(tags, term)| <= TAGS_MAX_RESULTS ==> multiset(r) == multiset(FilterByTerm(tags, term))
  {
    var kept := FilterByTerm(tags, term);
    var sorted := SortByName(kept);
    SortByNameSorted(kept);
    var r := Take(sorted, TAGS_MAX_RESULTS);
    PrefixMultiset(sorted, |r|);
    assert term != "" ==> forall i :: 0 <= i < |r| ==> Matches(r[i], term) by {
      if term != "" {
        MatchingKept(r, kept, term);
      }
    }
    r
  }

  lemma PrefixMultiset(s: seq<Named>, n: nat)
    requires n <= |s|
    ensures multiset(s[..n]) <= multiset(s)
  {
    assert s == s[..n] + s[n..];
  }

  /** A sub-multiset of matching items holds only matching items. */
  lemma MatchingKept(r: seq<Named>, kept: seq<Named>, term: string)
    requires multiset(r) <= multiset(kept)
    requires forall i :: 0 <= i < |kept| ==> Matches(kept[i], term)
    ensures forall i :: 0 <= i < |r| ==> Matches(r[i], term)
  {
    forall i | 0 <= i < |r| ensures Matches(r[i], term) {
      assert r[i] in multiset(r);
      assert r[i] in kept;
    }
  }

  /** The notebook listing of the cached service: exactly the matching
      notebooks, sorted by name, equal names in their listed order. */
  function ShapeNotebooks(notebooks: seq<Named>, term: string): (r: seq<Named>)
    ensures SortedByName(r)
    ensures multiset(r) == multiset(FilterByTerm(notebooks, term))
    ensures forall name :: WithName(r, name) == WithName(FilterByTerm(notebooks, term), name)
    ensures term == "" ==> multiset(r) == multiset(notebooks)
    ensures term != "" ==> forall i :: 0 <= i < |r| ==> Matches(r[i], term)
  {
    var kept := FilterByTerm(notebooks, term);
    SortByNameSorted(kept);
    SortByNameStableAll(kept);
    var r := SortByName(kept);
    assert term != "" ==> forall i :: 0 <= i < |r| ==> Matches(r[i], term) by {
      if term != "" {
        MatchingKept(r, kept, term);
      }
    }
    r
  }
}

=== FILE: template.dfy ===
/** The two forms of `String.prototype.replace` the link builder chains: with a
    string pattern (only the first occurrence is replaced) and with a global
    regular expression made of literal characters (every non-overlapping
    occurrence, scanned left to right, is replaced). Both expand the `$`
    substitution patterns of the replacement text as ECMAScript's GetSubstitution
    does when there are no capture groups. */
module Template {

  import opened Wrappers
  import opened Text

  /** The replacement text for one match: `$$` is a dollar, `$&` the match,
      `` $` `` what precedes it, `$'` what follows it; any other `$` (including
      `$1`, `$<` and a trailing `$`) stands for itself. So a text without `$`
      is inserted verbatim. */
  function Substitute(rep: string, matched: string, before: string, after: string): (r: string)
    ensures '$' !in rep ==> r == rep
    decreases |rep|
  {
    if |rep| == 0 then ""
    else if rep[0] == '$' && |rep| >= 2 && rep[1] in "$&`'" then
      (if rep[1] == '$' then "$"
       else if rep[1] == '&' then matched
       else if rep[1] == '`' then before
       else after)
      + Substitute(rep[2..], matched, before, after)
    else
      assert '$' !in rep ==> '$' !in rep[1..] by {
        if '$' !in rep {
          forall k | 0 <= k < |rep[1..]| ensures rep[1..][k] != '$' {
            assert rep[1..][k] == rep[k + 1];
          }
        }
      }
      [rep[0]] + Substitute(rep[1..], matched, before, after)
  }

  /** `s.replace(pat, rep)` with a string pattern. */
  function ReplaceFirst(s: string, pat: string, rep: string): (r: string)
    ensures IndexOf(s, pat).None? ==> r == s
    ensures IndexOf(s, pat).Some? && '$' !in rep ==>
      (exists i: nat :: FirstOccurrence(s, pat, i) && r == s[..i] + rep + s[i + |pat|..])
  {
    match IndexOf(s, pat)
    case None => s
    case Some(i) => s[..i] + Substitute(rep, pat, s[..i], s[i + |pat|..]) + s[i + |pat|..]
  }

  /** `s.replace(/pat/g, rep)` from position `i` on, for a non-empty literal pattern. */
  function ReplaceAllFrom(s: string, pat: string, rep: string, i: nat): string
    requires |pat| > 0 && i <= |s|
    decreases |s| - i
  {
    if OccursAt(s, pat, i) then
      Substitute(rep, pat, s[..i], s[i + |pat|..]) + ReplaceAllFrom(s, pat, rep, i + |pat|)
    else if i < |s| then [s[i]] + ReplaceAllFrom(s, pat, rep, i + 1)
    else ""
  }

  /** `s.replace(/pat/g, rep)` for a non-empty literal pattern: a string
      without the pattern's first character is returned unchanged. */
  function ReplaceAll(s: string, pat: string, rep: string): (r: string)
    requires |pat| > 0
    ensures pat[0] !in s ==> r == s
  {
    assert pat[0] !in s ==> ReplaceAllFrom(s, pat, rep, 0) == s by {
      if pat[0] !in s {
        ReplaceAllCopiesFree(s, pat, rep, 0, |s|);
        ReplaceAllAtEnd(s, pat, rep);
        assert s[0..|s|] == s;
      }
    }
    ReplaceAllFrom(s, pat, rep, 0)
  }

  /** No character of `s[i..j]` is `c`. */
  predicate FreeOf(s: string, i: nat, j: nat, c: char)
    requires i <= j <= |s|
  {
    forall k :: i <= k < j ==> s[k] != c
  }

  /** A pattern starting with `c` cannot occur where `s` has no `c`. */
  lemma NoOccurrenceWhereFree(s: string, pat: string, i: nat, j: nat)
    requires |pat| > 0 && i <= j <= |s| && FreeOf(s, i, j, pat[0])
    ensures forall k :: i <= k < j ==> !OccursAt(s, pat, k)
  {
    forall k | i <= k < j
      ensures !OccursAt(s, pat, k)
    {
      if k + |pat| <= |s| {
        assert s[k..k + |pat|][0] == s[k] != pat[0];
      }
    }
  }

  /** With its first character absent from `a`, the first occurrence of `pat` in
      `a + pat + b` is the one right after `a`, and only it is replaced. */
  lemma ReplaceFirstAfterFree(a: string, pat: string, b: string, rep: string)
    requires |pat| > 0 && pat[0] !in a && '$' !in rep
    ensures ReplaceFirst(a + pat + b, pat, rep) == a + rep + b
  {
    var s := a + pat + b;
    assert FreeOf(s, 0, |a|, pat[0]) by {
      forall k | 0 <= k < |a| ensures s[k] != pat[0] {
        assert s[k] == a[k];
      }
    }
    NoOccurrenceWhereFree(s, pat, 0, |a|);
    assert s[|a|..|a| + |pat|] == pat;
    assert OccursAt(s, pat, |a|);
    assert IndexOf(s, pat) == Some(|a|);
    assert s[..|a|] == a && s[|a| + |pat|..] == b;
  }

  /** The global scan copies a stretch free of the pattern's first character. */
  lemma {:induction false} ReplaceAllCopiesFree(s: string, pat: string, rep: string, i: nat, j: nat)
    requires |pat| > 0 && i <= j <= |s| && FreeOf(s, i, j, pat[0])
    ensures ReplaceAllFrom(s, pat, rep, i) == s[i..j] + ReplaceAllFrom(s, pat, rep, j)
    decreases j - i
  {
    if i < j {
      NoOccurrenceWhereFree(s, pat, i, j);
      assert !OccursAt(s, pat, i);
      assert ReplaceAllFrom(s, pat, rep, i) == [s[i]] + ReplaceAllFrom(s, pat, rep, i + 1);
      assert FreeOf(s, i + 1, j, pat[0]);
      ReplaceAllCopiesFree(s, pat, rep, i + 1, j);
      assert s[i..j] == [s[i]] + s[i + 1..j];
    }
  }

  /** The global scan replaces an occurrence with a `$`-free text verbatim. */
  lemma ReplaceAllAtOccurrence(s: string, pat: string, rep: string, i: nat)
    requires |pat| > 0 && i <= |s| && OccursAt(s, pat, i) && '$' !in rep
    ensures ReplaceAllFrom(s, pat, rep, i) == rep + ReplaceAllFrom(s, pat, rep, i + |pat|)
  {
  }

  /** With a `$`-free replacement the scan of `p + b` past `p` is the scan of
      `b`: what precedes does not matter. */
  lemma {:induction false} ReplaceAllShift(p: string, b: string, pat: string, rep: string, i: nat)
    requires |pat| > 0 && '$' !in rep && i <= |b|
    ensures ReplaceAllFrom(p + b, pat, rep, |p| + i) == ReplaceAllFrom(b, pat, rep, i)
    decreases |b| - i
  {
    var s := p + b;
    var k := |p| + i;
    assert OccursAt(s, pat, k) <==> OccursAt(b, pat, i) by {
      if i + |pat| <= |b| {
        assert s[k..k + |pat|] == b[i..i + |pat|];
      }
    }
    if OccursAt(b, pat, i) {
      ReplaceAllShift(p, b, pat, rep, i + |pat|);
    } else if i < |b| {
      assert s[k] == b[i];
      ReplaceAllShift(p, b, pat, rep, i + 1);
    }
  }

  /** The scan from the start copies a free prefix, then replaces the
      occurrence that ends it. */
  lemma ReplaceAllThroughOccurrence(s: string, pat: string, rep: string, k: nat)
    requires |pat| > 0 && '$' !in rep && k <= |s|
    requires FreeOf(s, 0, k, pat[0]) && OccursAt(s, pat, k)
    ensures ReplaceAllFrom(s, pat, rep, 0) == s[..k] + rep + ReplaceAllFrom(s, pat, rep, k + |pat|)
  {
    ReplaceAllCopiesFree(s, pat, rep, 0, k);
    ReplaceAllAtOccurrence(s, pat, rep, k);
    assert s[0..k] == s[..k];
  }

  /** The global replace turns the first occurrence after a stretch free of the
      pattern's first character into the replacement, and goes on with the rest. */
  lemma ReplaceAllAfterFree(a: string, pat: string, b: string, rep: string)
    requires |pat| > 0 && '$' !in rep && pat[0] !in a
    ensures ReplaceAll(a + pat + b, pat, rep) == a + rep + ReplaceAll(b, pat, rep)
  {
    var p := a + pat;
    var s := p + b;
    var k := |a|;
    assert s[..k] == a;
    assert FreeOf(s, 0, k, pat[0]) by {
      forall j | 0 <= j < k ensures s[j] != pat[0] {
        assert s[j] == a[j];
      }
    }
    assert s[k..k + |pat|] == pat;
    ReplaceAllThroughOccurrence(s, pat, rep, k);
    ReplaceAllShift(p, b, pat, rep, 0);
    assert |p| + 0 == k + |pat|;
    var tail := ReplaceAllFrom(b, pat, rep, 0);
    assert ReplaceAllFrom(s, pat, rep, k + |pat|) == tail;
    assert ReplaceAllFrom(s, pat, rep, 0) == a + rep + tail;
    assert ReplaceAll(b, pat, rep) == tail;
    assert ReplaceAll(s, pat, rep) == a + rep + tail;
  }

  /** At the end of the string the scan yields nothing more. */
  lemma ReplaceAllAtEnd(s: string, pat: string, rep: string)
    requires |pat| > 0
    ensures ReplaceAllFrom(s, pat, rep, |s|) == ""
  {
    assert !OccursAt(s, pat, |s|);
  }

  /** A pattern cannot occur at `k` when some character of the window disagrees. */
  lemma MismatchAt(s: string, pat: string, k: nat, d: nat)
    requires d < |pat| && k + d < |s| && s[k + d] != pat[d]
    ensures !OccursAt(s, pat, k)
  {
    if k + |pat| <= |s| {
      assert s[k..k + |pat|][d] == s[k + d];
    }
  }

  /** A pattern containing a character the string lacks does not occur in it. */
  lemma AbsentWhenCharMissing(s: string, pat: string, c: char)
    requires c in pat && c !in s
    ensures IndexOf(s, pat).None?
  {
    forall j | 0 <= j <= |s|
      ensures !OccursAt(s, pat, j)
    {
      var d :| 0 <= d < |pat| && pat[d] == c;
      if j + d < |s| {
        MismatchAt(s, pat, j, d);
      }
    }
  }

  /** A string starting with the pattern has it replaced there. */
  lemma ReplaceFirstAtStart(pat: string, b: string, rep: string)
    requires '$' !in rep
    ensures ReplaceFirst(pat + b, pat, rep) == rep + b
  {
    var s := pat + b;
    assert s[0..|pat|] == pat;
    assert OccursAt(s, pat, 0);
    assert s[..0] == "" && s[|pat|..] == b;
  }

  /** When `pat` does not occur inside the first `|a|` positions of
      `a + pat + b`, the first occurrence is the one right after `a`, and only it
      is replaced. */
  lemma ReplaceFirstAfter(a: string, pat: string, b: string, rep: string)
    requires forall k :: 0 <= k < |a| ==> !OccursAt(a + pat + b, pat, k)
    requires '$' !in rep
    ensures ReplaceFirst(a + pat + b, pat, rep) == a + rep + b
  {
    var s := a + pat + b;
    assert s[|a|..|a| + |pat|] == pat;
    assert OccursAt(s, pat, |a|);
    assert IndexOf(s, pat) == Some(|a|);
    assert s[..|a|] == a && s[|a| + |pat|..] == b;
  }
}

=== FILE: text.dfy ===
/** The string primitives the plugin relies on, stated over `seq<char>`:
    `toLowerCase`, `startsWith`, `indexOf`, `trim`, `split(' ')`, `join`, and the
    relational `<` JavaScript uses on strings (code-unit lexicographic order). */
module Text {

  import opened Wrappers

  /** `c` is an upper-case ASCII letter. */
  predicate IsUpper(c: char) {
    'A' <= c <= 'Z'
  }

  /** Lower-cases one character (ASCII letters only). */
  function LowerChar(c: char): (d: char)
    ensures !IsUpper(d)
    ensures !IsUpper(c) ==> d == c
    ensures IsUpper(c) ==> d as int - c as int == 32
  {
    if IsUpper(c) then (c as int + 32) as char else c
  }

  /** `s.toLowerCase()`, character by character. */
  function Lower(s: string): (r: string)
    ensures |r| == |s|
    ensures forall i :: 0 <= i < |s| ==> r[i] == LowerChar(s[i])
  {
    if |s| == 0 then "" else [LowerChar(s[0])] + Lower(s[1..])
  }

  /** `s.startsWith(p)`. */
  predicate StartsWith(s: string, p: string) {
    |p| <= |s| && s[..|p|] == p
  }

  /** `s` has pattern `p` at position `i`. */
  predicate OccursAt(s: string, p: string, i: nat) {
    i + |p| <= |s| && s[i..i + |p|] == p
  }

  /** `p` occurs in `s` at `i` and nowhere before. */
  predicate FirstOccurrence(s: string, p: string, i: nat) {
    OccursAt(s, p, i) && forall j :: 0 <= j < i ==> !OccursAt(s, p, j)
  }

  /** The first position at or after `from` where `p` occurs in `s`, as
      `s.indexOf(p, from)` finds it. */
  function IndexFrom(s: string, p: string, from: nat): (r: Option<nat>)
    requires from <= |s|
    decreases |s| - from
    ensures r.Some? ==> from <= r.value <= |s| && OccursAt(s, p, r.value)
    ensures r.Some? ==> forall j :: from <= j < r.value ==> !OccursAt(s, p, j)
    ensures r.None? ==> forall j :: from <= j <= |s| ==> !OccursAt(s, p, j)
  {
    if OccursAt(s, p, from) then Some(from)
    else if from == |s| then None
    else IndexFrom(s, p, from + 1)
  }

  /** `s.indexOf(p)`, `None` standing for -1. */
  function IndexOf(s: string, p: string): (r: Option<nat>)
    ensures r.Some? <==> exists j :: 0 <= j <= |s| && OccursAt(s, p, j)
    ensures r.Some? ==> OccursAt(s, p, r.value)
    ensures r.Some? ==> forall j :: 0 <= j < r.value ==> !OccursAt(s, p, j)
  {
    IndexFrom(s, p, 0)
  }

  // ---------------------------------------------------------------------------
  // Code-unit order, the `<` of JavaScript strings and so of lodash's orderBy
  // ---------------------------------------------------------------------------

  /** `a < b` on strings: lexicographic, a proper prefix sorts first. */
  predicate Less(a: string, b: string)
    decreases |a|
  {
    if |a| == 0 then |b| > 0
    else if |b| == 0 then false
    else if a[0] != b[0] then a[0] < b[0]
    else Less(a[1..], b[1..])
  }

  lemma {:induction false} LessIrreflexive(a: string)
    ensures !Less(a, a)
    decreases |a|
  {
    if |a| > 0 {
      LessIrreflexive(a[1..]);
    }
  }

  lemma {:induction false} LessTransitive(a: string, b: string, c: string)
    requires Less(a, b) && Less(b, c)
    ensures Less(a, c)
    decreases |a|
  {
    if |a| > 0 && a[0] == b[0] && b[0] == c[0] {
      LessTransitive(a[1..], b[1..], c[1..]);
    }
  }

  /** Any two different strings are ordered one way or the other. */
  lemma {:induction false} LessTotal(a: string, b: string)
    ensures a == b || Less(a, b) || Less(b, a)
    decreases |a|
  {
    if |a| > 0 && |b| > 0 && a[0] == b[0] {
      LessTotal(a[1..], b[1..]);
      if a[1..] == b[1..] {
        assert a == [a[0]] + a[1..] && b == [b[0]] + b[1..];
      }
    }
  }

  /** `!(b < a)` is transitive: what an ascending sort needs. */
  lemma NotLessTransitive(a: string, b: string, c: string)
    requires !Less(b, a) && !Less(c, b)
    ensures !Less(c, a)
  {
    LessTotal(a, b);
    LessTotal(b, c);
    if a != b && b != c {
      LessTransitive(a, b, c);
      LessIrreflexive(a);
      if Less(c, a) {
        LessTransitive(c, a, b);
      }
    } else if Less(c, a) {
      LessIrreflexive(a);
    }
  }

  // ---------------------------------------------------------------------------
  // trim, split and join
  // ---------------------------------------------------------------------------

  /** The characters `String.prototype.trim` removes: ECMAScript WhiteSpace
      (tab, vertical tab, form feed, space, no-break space, byte-order mark and the
      space separators of category Zs) and LineTerminator. */
  predicate IsTrimmed(c: char) {
    var n := c as int;
    n == 0x09 || n == 0x0B || n == 0x0C || n == 0x20 || n == 0xA0 || n == 0xFEFF
    || n == 0x1680 || (0x2000 <= n <= 0x200A) || n == 0x202F || n == 0x205F || n == 0x3000
    || IsLineTerminator(c)
  }

  /** The characters a regular expression's `.` does not match. */
  predicate IsLineTerminator(c: char) {
    var n := c as int;
    n == 0x0A || n == 0x0D || n == 0x2028 || n == 0x2029
  }

  function TrimStart(s: string): (r: string)
    ensures |r| <= |s| && r == s[|s| - |r|..]
    ensures |r| > 0 ==> !IsTrimmed(r[0])
    ensures forall i :: 0 <= i < |s| - |r| ==> IsTrimmed(s[i])
  {
    if |s| > 0 && IsTrimmed(s[0]) then TrimStart(s[1..]) else s
  }

  function TrimEnd(s: string): (r: string)
    ensures |r| <= |s| && r == s[..|r|]
    ensures |r| > 0 ==> !IsTrimmed(r[|r| - 1])
    ensures forall i :: |r| <= i < |s| ==> IsTrimmed(s[i])
  {
    if |s| > 0 && IsTrimmed(s[|s| - 1]) then TrimEnd(s[..|s| - 1]) else s
  }

  /** `s.trim()`: the infix of `s` left once the trimmable characters at both ends
      are gone. */
  function Trim(s: string): (r: string)
    ensures exists i :: 0 <= i <= |s| && TrimmedAt(s, r, i)
    ensures |r| > 0 ==> !IsTrimmed(r[0]) && !IsTrimmed(r[|r| - 1])
  {
    var t := TrimStart(s);
    var r := TrimEnd(t);
    var i := |s| - |t|;
    assert r == s[i..i + |r|];
    assert TrimmedAt(s, r, i);
    r
  }

  /** `r` is the infix of `s` starting at `i` and everything of `s` around it is
      trimmable. */
  predicate TrimmedAt(s: string, r: string, i: nat) {
    && i + |r| <= |s|
    && r == s[i..i + |r|]
    && (forall k :: 0 <= k < i ==> IsTrimmed(s[k]))
    && (forall k :: i + |r| <= k < |s| ==> IsTrimmed(s[k]))
  }

  /** The position of the first `c` in `s`. */
  function FirstIndex(s: string, c: char): (r: Option<nat>)
    ensures r.Some? ==> r.value < |s| && s[r.value] == c && c !in s[..r.value]
    ensures r.None? ==> c !in s
  {
    if |s| == 0 then None
    else if s[0] == c then Some(0)
    else match FirstIndex(s[1..], c)
      case None => None
      case Some(i) => assert s[1..][..i] == s[1..i + 1]; Some(i + 1)
  }

  /** `s.split(sep)` for a one-character separator. */
  function Split(s: string, sep: char): (parts: seq<string>)
    ensures |parts| >= 1
    ensures forall k :: 0 <= k < |parts| ==> sep !in parts[k]
    decreases |s|
  {
    match FirstIndex(s, sep)
    case None => [s]
    case Some(i) => [s[..i]] + Split(s[i + 1..], sep)
  }

  /** `parts.join(sep)`; the empty list joins to the empty string. The result
      starts with the first piece and holds only the pieces' characters and the
      separator. */
  function Join(parts: seq<string>, sep: char): (r: string)
    ensures |parts| >= 1 ==> StartsWith(r, parts[0])
    ensures forall c :: c in r ==> c == sep || exists k :: 0 <= k < |parts| && c in parts[k]
  {
    if |parts| == 0 then ""
    else if |parts| == 1 then parts[0]
    else parts[0] + [sep] + Join(parts[1..], sep)
  }

  /** Joining the pieces of a split gives back the original string. */
  lemma {:induction false} JoinSplit(s: string, sep: char)
    ensures Join(Split(s, sep), sep) == s
    decreases |s|
  {
    match FirstIndex(s, sep)
    case None =>
    case Some(i) =>
      var rest := Split(s[i + 1..], sep);
      assert Split(s, sep) == [s[..i]] + rest;
      JoinSplit(s[i + 1..], sep);
      assert Join([s[..i]] + rest, sep) == s[..i] + [sep] + Join(rest, sep);
      assert s == s[..i] + [sep] + s[i + 1..];
  }

  /** Splitting a join of separator-free pieces gives back the pieces. */
  lemma {:induction false} SplitJoin(parts: seq<string>, sep: char)
    requires |parts| >= 1
    requires forall k :: 0 <= k < |parts| ==> sep !in parts[k]
    ensures Split(Join(parts, sep), sep) == parts
    decreases |parts|
  {
    var s := Join(parts, sep);
    if |parts| == 1 {
      assert FirstIndex(s, sep).None?;
    } else {
      var rest := Join(parts[1..], sep);
      assert s == parts[0] + [sep] + rest;
      FirstIndexAfterPrefix(parts[0], sep, rest);
      assert s[..|parts[0]|] == parts[0];
      assert s[|parts[0]| + 1..] == rest;
      SplitJoin(parts[1..], sep);
    }
  }

  lemma {:induction false} FirstIndexAfterPrefix(a: string, c: char, b: string)
    requires c !in a
    ensures FirstIndex(a + [c] + b, c) == Some(|a|)
    decreases |a|
  {
    if |a| > 0 {
      assert (a + [c] + b)[1..] == a[1..] + [c] + b;
      FirstIndexAfterPrefix(a[1..], c, b);
    }
  }

  /** Every character `from` of `s` replaced by `to`. */
  function ReplaceChar(s: string, from: char, to: char): (r: string)
    ensures |r| == |s|
    ensures forall i :: 0 <= i < |s| ==> r[i] == (if s[i] == from then to else s[i])
  {
    if |s| == 0 then "" else [if s[0] == from then to else s[0]] + ReplaceChar(s[1..], from, to)
  }

  /** Re-joining the pieces of a split with another separator is replacing the
      separator. */
  lemma {:induction false} JoinSplitReplaces(s: string, sep: char, other: char)
    ensures Join(Split(s, sep), other) == ReplaceChar(s, sep, other)
    decreases |s|
  {
    match FirstIndex(s, sep)
    case None =>
      ReplaceCharAbsent(s, sep, other);
    case Some(i) =>
      var a, b := s[..i], s[i + 1..];
      var rest := Split(b, sep);
      assert Split(s, sep) == [a] + rest;
      JoinCons(a, rest, other);
      assert Join(Split(s, sep), other) == a + [other] + Join(rest, other);
      JoinSplitReplaces(b, sep, other);
      assert Join(rest, other) == ReplaceChar(b, sep, other);
      SliceAround(s, i);
      ReplaceAroundSeparator(a, b, sep, other);
      assert ReplaceChar(s, sep, other) == a + [other] + ReplaceChar(b, sep, other);
  }

  lemma SliceAround(s: string, i: nat)
    requires i < |s|
    ensures s == s[..i] + [s[i]] + s[i + 1..]
  {
  }

  lemma ReplaceAroundSeparator(a: string, b: string, sep: char, other: char)
    requires sep !in a
    ensures ReplaceChar(a + [sep] + b, sep, other) == a + [other] + ReplaceChar(b, sep, other)
  {
    ReplaceCharAbsent(a, sep, other);
    ReplaceCharConcat(a + [sep], b, sep, other);
    ReplaceCharConcat(a, [sep], sep, other);
    assert ReplaceChar([sep], sep, other) == [other];
  }

  lemma JoinCons(p: string, rest: seq<string>, sep: char)
    requires |rest| >= 1
    ensures Join([p] + rest, sep) == p + [sep] + Join(rest, sep)
  {
    assert ([p] + rest)[1..] == rest;
  }

  lemma ReplaceCharAbsent(s: string, from: char, to: char)
    requires from !in s
    ensures ReplaceChar(s, from, to) == s
  {
  }

  lemma ReplaceCharConcat(a: string, b: string, from: char, to: char)
    ensures ReplaceChar(a + b, from, to) == ReplaceChar(a, from, to) + ReplaceChar(b, from, to)
  {
  }
}

=== FILE: wrappers.dfy ===
/** Option and Result, the two failure-carrying datatypes the model threads through
    every operation instead of JavaScript's `undefined` and thrown errors. */
module Wrappers {

  datatype Option<+T> = None | Some(value: T)

  /** A value or an error; `Err` stands for a rejected promise. */
  datatype Result<+T, +E> = Ok(value: T) | Err(error: E)
}
